=== FILE: README.md ===
# File service: serving plans, traversal guard and on-demand archives

A Dafny model of the file-serving and compression core of the `file-service`
of the Audira platform.

- **Serving** (`FileServeController`). A request for
  `/api/files/{subDirectory}/{fileName}` reads a stored file. The answer is
  one of four plans: the whole file (`200`), one byte window
  (`206 Partial Content`, section 4.1 of RFC 7233), `404`, or `500`.
  - The controller itself only answers `206` for audio files that carry a
    `Range` header. The statements about windows are about the controller's
    answer: its status and its `Content-Range` and `Content-Length` headers.
    They are not about the bytes the client receives.
  - `ServeFile` answers a `Range` header with the corrected handler
    `HandleRange`: a header it cannot use gets the whole file with `200`, as
    the handler's documentation says. The handler as written answers `500`
    there (see "## Findings").
  - The MIME type comes from the text after the last dot, lower-cased.
  - Spring's `HttpRange` is not part of this model. `RangeHeader` stands in
    for it with a parser of the `bytes=` unit and window arithmetic written
    from section 2.1 of RFC 7233. Only the first range of the list is used.
- **Paths** (`Paths`). Paths are sequences of names, with the semantics of
  `java.nio` Unix paths:
  - `Paths.get` parses the text;
  - `resolve` lets an absolute path replace the base;
  - `normalize` folds `.` and `..` without touching the disk;
  - `startsWith` compares name by name.

  The traversal guard of `compressSingleFile` is `Contained`.
  `GuardMeansDescendant` shows that it admits exactly the root and the paths
  below it reached by plain names.
- **Archives** (`CompressionService`).
  - An archive is an ordered list of entries (name, bytes).
  - The disk writes are a list of effects: creating `compressed/` and
    writing an archive. This shows what a failed call leaves behind.
  - The 1024-byte copy loop of `addFileToZip` is the method `CopyEntry`.
  - `compressFiles` only checks that each input exists, so it archives files
    outside the storage root (`MultiFileNotConfined`).
  - Every entry is named by the file's last name alone, and the archive
    refuses a name it already holds. Two inputs with the same name, even in
    different folders, make the job fail with `duplicate entry: <name>`
    (`DuplicateNameAborts`, `RepeatedInputFails`). Extraction therefore gives
    back every file only when the names are distinct, and that is when the
    job succeeds.
- **Endpoints** (`CompressionApi`). The two `POST` handlers cover:
  - input validation;
  - the sum of the original sizes, taken before any archive is written;
  - the download URL;
  - the compression ratio, as a `real`.

The file store is a map from normalized absolute paths to byte sequences with
a readable flag (`Storage`). The process's working directory, the storage
root, the UUID token and the size of the written archive are parameters.

The two declarations of `addFileToZip` (`FileCompressionService.java:122` and
`:152`) have the same copy loop, so one method models both. The second opens
the file with `FileInputStream` instead of `Files.newInputStream`.

## Model

| member | source | states |
|---|---|---|
| Paths.ParsePath | file-service/src/main/java/io/audira/fileservice/service/FileCompressionService.java:57 | A path text is refused exactly when it holds NUL. Otherwise it is absolute exactly when it starts with `/`, and every name is non-empty and free of `/` and NUL. |
| Paths.PathTextRoundTrip | file-service/src/main/java/io/audira/fileservice/controller/FileCompressionController.java:115 | `toString()` of a path parses back to the same path, so the checked text the handler passes on names the checked file. |
| Paths.Normalize | file-service/src/main/java/io/audira/fileservice/service/FileCompressionService.java:86 | `normalize()` keeps absoluteness and valid names and yields a normal path: no `.`, no `..` in an absolute path, `..` only leading in a relative one. |
| Paths.NormalizeFixesNormal | file-service/src/main/java/io/audira/fileservice/service/FileCompressionService.java:86 | A normal path is its own normal form. |
| Paths.NormalizeIdempotent | file-service/src/main/java/io/audira/fileservice/service/FileCompressionService.java:86 | Normalizing twice is normalizing once. |
| Paths.StorageLocation | file-service/src/main/java/io/audira/fileservice/service/FileCompressionService.java:83 | `Paths.get(uploadDir).toAbsolutePath().normalize()` fails only on NUL, and otherwise is an absolute normal root. |
| Paths.GuardMeansDescendant | file-service/src/main/java/io/audira/fileservice/service/FileCompressionService.java:86-93 | The guard admits an input exactly when its resolved path is the root followed by plain names (no `.` or `..`). |
| Paths.ClimbingEscapes | file-service/src/main/java/io/audira/fileservice/service/FileCompressionService.java:88-93 | Any run of `..` names resolved under a root with at least one name lands outside it and is refused. |
| Paths.AbsoluteOutsideRefused | file-service/src/main/java/io/audira/fileservice/service/FileCompressionService.java:86-93 | An absolute input replaces the root, so one whose normal form is not below the root is refused. |
| Paths.SiblingPrefixRefused | file-service/src/main/java/io/audira/fileservice/service/FileCompressionService.java:91 | `/srv/uploads2/x` is refused under `/srv/uploads` although its text begins with the root's text: the comparison is by name. |
| Text.LastIndexOf | file-service/src/main/java/io/audira/fileservice/controller/FileServeController.java:91 | `lastIndexOf` is -1 when the character is absent, and otherwise the position of its last occurrence. |
| Text.DecimalRoundTrip | file-service/src/main/java/io/audira/fileservice/controller/FileServeController.java:169 | The decimal text of a number written by `%d` parses back to the number. |
| ContentTypes.Extension | file-service/src/main/java/io/audira/fileservice/controller/FileServeController.java:91 | The extension is the lower-cased text after the last dot. That text holds no dot and starts at the beginning or right after a dot. |
| ContentTypes.ContentTypeFollowsTable | file-service/src/main/java/io/audira/fileservice/controller/FileServeController.java:90-114 | The MIME type of every name is the documented table's entry for its extension, or `application/octet-stream` for any other extension. |
| ContentTypes.MimeFollowsTable | file-service/src/main/java/io/audira/fileservice/controller/FileServeController.java:92-113 | The `switch` agrees with the table on every extension. |
| ContentTypes.AudioIffAudioType | file-service/src/main/java/io/audira/fileservice/controller/FileServeController.java:122-126 | A name is audio for streaming exactly when its MIME type is an `audio/` type. |
| ContentTypes.AudioExtensionIffAudioMime | file-service/src/main/java/io/audira/fileservice/controller/FileServeController.java:102-110 | mp3, wav, flac, midi and mid are exactly the extensions mapped to `audio/` types. |
| ContentTypes.ClassificationIgnoresCase | file-service/src/main/java/io/audira/fileservice/controller/FileServeController.java:91 | Lower-casing the name first changes neither the extension, the MIME type nor the audio test. |
| ContentTypes.NoDotUsesWholeName | file-service/src/main/java/io/audira/fileservice/controller/FileServeController.java:123 | A name without a dot is its own extension. |
| ContentTypes.BareMp3IsAudio | file-service/src/main/java/io/audira/fileservice/controller/FileServeController.java:123-125 | The name `MP3` is audio, with type `audio/mpeg`. |
| RangeHeader.ParseRanges | file-service/src/main/java/io/audira/fileservice/controller/FileServeController.java:149 | A parsed list holds only valid specs (last not before first), and a non-empty header without the `bytes=` unit is refused. |
| RangeHeader.RenderParses | file-service/src/main/java/io/audira/fileservice/controller/FileServeController.java:149 | A `Range` value written by a client from valid specs parses back to exactly those specs. |
| RangeHeader.ParseRenderSpec | file-service/src/main/java/io/audira/fileservice/controller/FileServeController.java:149 | One written spec parses back to itself. |
| RangeHeader.Window | file-service/src/main/java/io/audira/fileservice/controller/FileServeController.java:160-161 | A window, when there is one, lies inside the file: start ≤ end < size. |
| RangeHeader.WindowIsSelection | file-service/src/main/java/io/audira/fileservice/controller/FileServeController.java:160-162 | The window is exactly the set of offsets RFC 7233 says the spec selects, and there is none exactly when nothing is selected. |
| RangeHeader.FirstByteOnly | file-service/src/main/java/io/audira/fileservice/controller/FileServeController.java:159-161 | `bytes=0-0` parses to the single spec 0-0, whose window is byte 0 alone. |
| RangeHeader.StartAtEndUnsatisfiable | file-service/src/main/java/io/audira/fileservice/controller/FileServeController.java:160 | A range starting at or past the end selects nothing. |
| RangeHeader.LettersRefused | file-service/src/main/java/io/audira/fileservice/controller/FileServeController.java:149 | `bytes=abc` is refused. |
| FileServe.HandleRangeAsWritten | file-service/src/main/java/io/audira/fileservice/controller/FileServeController.java:147-178 | As written, the answer is `500` exactly when the `try` block throws, and a refused header always gets `500`. |
| FileServe.HandleRange | file-service/src/main/java/io/audira/fileservice/controller/FileServeController.java:140-178 | The answer is always `200` or `206`. A `200` is the whole file with no `Content-Disposition`. A `206` window lies inside the file. A refused header gets the whole file. |
| FileServe.ServeFile | file-service/src/main/java/io/audira/fileservice/controller/FileServeController.java:50-82 | A `200` or `206` is only given for an existing readable file, and its size is that file's size. |
| FileServe.WithoutRangeServesWhole | file-service/src/main/java/io/audira/fileservice/controller/FileServeController.java:65-75 | Without a `Range` header, or for a non-audio file, a readable file is served whole with `200`, its size as `Content-Length` and `Accept-Ranges: bytes`. |
| FileServe.NoPartialWithoutAudioRange | file-service/src/main/java/io/audira/fileservice/controller/FileServeController.java:65 | Without a `Range` header or for a non-audio file there is never a `206`. |
| FileServe.MissingOrUnreadableIsNotFound | file-service/src/main/java/io/audira/fileservice/controller/FileServeController.java:60-81 | `404` exactly for a missing or unreadable file; `500` exactly for a path the file system refuses. |
| FileServe.AudioRangeIsHandled | file-service/src/main/java/io/audira/fileservice/controller/FileServeController.java:65-67 | An audio file with a `Range` header is answered by the range handler with the file's size, MIME type and name. |
| FileServe.PartialHeaders | file-service/src/main/java/io/audira/fileservice/controller/FileServeController.java:165-171 | A `206` carries `Content-Length` end − start + 1, `Content-Range: bytes start-end/size`, `Accept-Ranges: bytes` and an inline disposition with the file name. |
| FileServe.EmptyRangeListServesWhole | file-service/src/main/java/io/audira/fileservice/controller/FileServeController.java:151-157 | An empty range list gets the whole file with `200` and the file size as `Content-Length`. |
| FileServe.FirstRangeDecides | file-service/src/main/java/io/audira/fileservice/controller/FileServeController.java:159 | The answer to a range list is the answer to its first range alone. |
| FileServe.PartialIsSelection | file-service/src/main/java/io/audira/fileservice/controller/FileServeController.java:159-162 | The window a `206` names in its `Content-Range` is exactly the bytes the first range selects. This concerns the controller's answer, not the body sent. |
| FileServe.SatisfiableIsPartial | file-service/src/main/java/io/audira/fileservice/controller/FileServeController.java:159-171 | A first range that selects some byte of the file always gets a `206` with its window. With `PartialIsSelection`, a `206` comes exactly for a satisfiable first range. |
| FileServe.UnsatisfiableServesWhole | file-service/src/main/java/io/audira/fileservice/controller/FileServeController.java:160-161 | A first range that selects nothing never gets a `206`. |
| FileServe.FirstByteWindow | file-service/src/main/java/io/audira/fileservice/controller/FileServeController.java:159-171 | `bytes=0-0` on a non-empty file gets a one-byte `206` with `Content-Range: bytes 0-0/size`. |
| FileServe.StartAtEndNotPartial | file-service/src/main/java/io/audira/fileservice/controller/FileServeController.java:160-161 | A range starting at the file size gets no `206`. |
| FileServe.MalformedNeverPartial | file-service/src/main/java/io/audira/fileservice/controller/FileServeController.java:172-178 | A refused header never gets `206`: as written it gets `500`, and corrected it gets the whole file. |
| FileServe.VersionsAgreeUnlessThrown | file-service/src/main/java/io/audira/fileservice/controller/FileServeController.java:147-178 | The written and corrected handlers agree except where the `try` block throws. There the first answers `500` and the second `200`. |
| FileServe.MalformedHeaderDiscrepancy | file-service/src/main/java/io/audira/fileservice/controller/FileServeController.java:140 | On `bytes=abc` the written handler answers `500` where the documentation promises the whole file. |
| CompressionService.AddOne | file-service/src/main/java/io/audira/fileservice/service/FileCompressionService.java:57-64 | One pass of the loop completes exactly when the input is archivable and its name is not yet in the archive. It then writes exactly that input's entry: its file name and bytes. |
| CompressionService.AddFromCompletes | file-service/src/main/java/io/audira/fileservice/service/FileCompressionService.java:56-65 | Given the names already in the archive, the loop completes exactly when every input is archivable, no input's name is already used, and no two inputs share a name. |
| CompressionService.AddFromEntries | file-service/src/main/java/io/audira/fileservice/service/FileCompressionService.java:56-65 | A completed loop writes one entry per input, in input order, each the input's file name and bytes. |
| CompressionService.AddAll | file-service/src/main/java/io/audira/fileservice/service/FileCompressionService.java:56-65 | The loop completes exactly when every input is archivable and no two inputs share an entry name. It then writes one entry per input in order: the last name of the normalized path, with the file's bytes. |
| CompressionService.CompressFiles | file-service/src/main/java/io/audira/fileservice/service/FileCompressionService.java:42-69 | Creates `compressed/` and writes `compressed/<token>.zip`, and on success returns `compressed/<token>.zip`. |
| CompressionService.ArchiveHoldsSources | file-service/src/main/java/io/audira/fileservice/service/FileCompressionService.java:56-68 | `compressFiles` succeeds exactly when every input is archivable and the entry names are pairwise distinct. The archive then holds, for each input in order, its file name and bytes. |
| CompressionService.MissingInputAborts | file-service/src/main/java/io/audira/fileservice/service/FileCompressionService.java:59-61 | When the inputs before it are archivable with distinct names, the first missing input aborts the loop with `Archivo no encontrado: <input>`, leaving exactly the entries of the inputs before it. |
| CompressionService.DuplicateNameAborts | file-service/src/main/java/io/audira/fileservice/service/FileCompressionService.java:122-124 | An existing input whose name equals an earlier input's aborts the loop with `duplicate entry: <name>` from `putNextEntry`, leaving exactly the entries of the inputs before it. |
| CompressionService.MultiFileNotConfined | file-service/src/main/java/io/audira/fileservice/service/FileCompressionService.java:57-61 | `../secret` under `/srv/uploads` fails the guard, yet `compressFiles` archives `/srv/secret`. |
| CompressionService.CompressSingleFile | file-service/src/main/java/io/audira/fileservice/service/FileCompressionService.java:81-117 | A single-file archive is only produced for an archivable input that passes the traversal guard. |
| CompressionService.EscapeRefusedFirst | file-service/src/main/java/io/audira/fileservice/service/FileCompressionService.java:86-101 | An input outside the root is refused with the security message, before the existence check and before `compressed/` is created. |
| CompressionService.SingleMissingNotFound | file-service/src/main/java/io/audira/fileservice/service/FileCompressionService.java:95-97 | A missing file inside the root is reported by name, with nothing created. |
| CompressionService.MissingSameEverywhere | file-service/src/main/java/io/audira/fileservice/service/FileCompressionService.java:59-61 | A missing file gets the same `Archivo no encontrado: <input>` from `getFileSize` and `compressFiles`, and from `compressSingleFile` once inside the root. |
| CompressionService.SingleArchiveShape | file-service/src/main/java/io/audira/fileservice/service/FileCompressionService.java:99-116 | A successful single-file archive is `compressed/<stem>_<first 8 token chars>.zip` and holds one entry with the original name and bytes. |
| CompressionService.SingleWithoutDotFails | file-service/src/main/java/io/audira/fileservice/service/FileCompressionService.java:104-106 | A name without a dot fails in `substring` after `compressed/` is created and before any archive is written. |
| CompressionService.SingleNamesDifferByToken | file-service/src/main/java/io/audira/fileservice/service/FileCompressionService.java:105-106 | Two archives of one file get different names exactly when the first eight characters of their tokens differ. |
| CompressionService.GetFileSize | file-service/src/main/java/io/audira/fileservice/service/FileCompressionService.java:174-183 | A size is returned exactly for an existing resolved file, and it is that file's length. For an input the file system accepts but that does not exist, the answer is `Archivo no encontrado: <input>`. An input holding NUL fails in `resolve` instead. |
| CompressionService.SizeOfExistingFile | file-service/src/main/java/io/audira/fileservice/service/FileCompressionService.java:182 | The size of an existing file is its byte count. |
| CompressionService.CopyEntry | file-service/src/main/java/io/audira/fileservice/service/FileCompressionService.java:128-135 | Each read takes 1 to 1024 bytes, and the reads add up to the file's length. The bytes written equal the source. |
| CompressionApi.Ratio | file-service/src/main/java/io/audira/fileservice/controller/FileCompressionController.java:62 | The ratio is at most 100. It is 100 exactly for an empty archive, 0 exactly for equal sizes, and negative exactly when the archive is larger. The saved bytes are recovered as ratio × before / 100. |
| CompressionApi.ReportedRatio | file-service/src/main/java/io/audira/fileservice/controller/FileCompressionController.java:127 | A ratio is reported exactly when the original size is positive, and then it is `Ratio` of the two sizes. |
| CompressionApi.QuarterSizeIsSeventyFive | file-service/src/main/java/io/audira/fileservice/controller/FileCompressionController.java:62 | 1000 bytes compressed to 250 is a ratio of 75. |
| CompressionApi.SumSizes | file-service/src/main/java/io/audira/fileservice/controller/FileCompressionController.java:53-56 | The sum exists exactly when every reported size exists. |
| CompressionApi.SumSizesAdditive | file-service/src/main/java/io/audira/fileservice/controller/FileCompressionController.java:53-56 | The sum over a concatenation of reported sizes is the sum of the two sums. |
| CompressionApi.SumSizesFirstFailure | file-service/src/main/java/io/audira/fileservice/controller/FileCompressionController.java:54-56 | The sum fails with the first failure in the list. |
| CompressionApi.TotalSize | file-service/src/main/java/io/audira/fileservice/controller/FileCompressionController.java:53-56 | The total exists exactly when every input has a size. |
| CompressionApi.TotalSizeAdditive | file-service/src/main/java/io/audira/fileservice/controller/FileCompressionController.java:53-56 | The total of a concatenation is the sum of the totals, so it is the sum of the sizes. |
| CompressionApi.TotalOfOne | file-service/src/main/java/io/audira/fileservice/controller/FileCompressionController.java:55 | One input's total is its size. |
| CompressionApi.TotalSizeFirstFailure | file-service/src/main/java/io/audira/fileservice/controller/FileCompressionController.java:54-56 | The total fails with the failure of the first input that has no size. |
| CompressionApi.HandleCompressMany | file-service/src/main/java/io/audira/fileservice/controller/FileCompressionController.java:43-80 | The answer is `200`, `400` or `500`. `400` comes exactly for a missing or empty list, and nothing is written. Every `500` body starts with `Error al comprimir archivos: `. A `200` counts the inputs and links its own archive path. |
| CompressionApi.MissingFileWritesNothing | file-service/src/main/java/io/audira/fileservice/controller/FileCompressionController.java:53-58 | A missing input answers `500` naming it, before any directory or archive is written. |
| CompressionApi.ManySuccess | file-service/src/main/java/io/audira/fileservice/controller/FileCompressionController.java:58-73 | Archivable inputs with distinct entry names get `200` with `<baseUrl>/api/files/compressed/<token>.zip`, the input count, the summed size, the archive size, the ratio, and one entry per input. |
| CompressionApi.RepeatedInputFails | file-service/src/main/java/io/audira/fileservice/controller/FileCompressionController.java:53-78 | The same file listed twice passes the size loop and then answers `500` with `Error al comprimir archivos: duplicate entry: <name>`. The archive left on disk holds the first entry alone. |
| CompressionApi.ManySucceedsExactly | file-service/src/main/java/io/audira/fileservice/controller/FileCompressionController.java:53-79 | A non-empty list gets `200` exactly when every input can be archived and no two inputs share an entry name. Every other list gets `500` from the `catch`. |
| CompressionApi.ArchiveUrl | file-service/src/main/java/io/audira/fileservice/controller/FileCompressionController.java:59 | The URL of `compressed/<name>` is `<baseUrl>/api/files/compressed/<name>`. |
| CompressionApi.HandleCompressSingleAsWritten | file-service/src/main/java/io/audira/fileservice/controller/FileCompressionController.java:89-137 | As written: `400` for a missing or empty name, and otherwise `500`; nothing is written. |
| CompressionApi.SingleAsWrittenNeverForbids | file-service/src/main/java/io/audira/fileservice/controller/FileCompressionController.java:102-112 | As written, every non-empty name gets `500 Error al comprimir`, so the `403` branch is never reached. |
| CompressionApi.HandleCompressSingle | file-service/src/main/java/io/audira/fileservice/controller/FileCompressionController.java:89-137 | With the storage root as base directory the answer is `200`, `400`, `403` or `500`. `400` comes exactly for a missing or empty name, and a `403` writes nothing. |
| CompressionApi.SingleRefusesEscape | file-service/src/main/java/io/audira/fileservice/controller/FileCompressionController.java:102-112 | A name resolving outside the root gets `403` with the access-denied message, and nothing is written. |
| CompressionApi.SingleSucceedsExactly | file-service/src/main/java/io/audira/fileservice/controller/FileCompressionController.java:114-137 | With the storage root as base directory, a name inside the root gets `200` exactly when its file exists, is readable, and has a dot in its name. Every other such name gets `500 Error al comprimir`. |
| CompressionApi.SafeTextResolvesBack | file-service/src/main/java/io/audira/fileservice/controller/FileCompressionController.java:115-122 | The checked path's text, resolved again by the service, is the same checked path and passes the service's own guard. |
| CompressionApi.SingleArchivesInsideFile | file-service/src/main/java/io/audira/fileservice/controller/FileCompressionController.java:114-133 | A readable file with a dot inside the root gets `200` with `<baseUrl>/api/files/compressed/<stem>_<8 token chars>.zip`. Its archive holds just that file. |

## Findings

| source | as written | input that shows it | evidently intended | confidence | as-written member | corrected member |
|---|---|---|---|---|---|---|
| file-service/src/main/java/io/audira/fileservice/controller/FileServeController.java:172-178 | The `catch` of `handleRangeRequest` returns `500` via `.build();`, followed by builder calls that hang off no expression (the file does not compile as it stands). | `Range: bytes=abc` on an audio file | The whole file with `200`, as the method's documentation (line 140) and the comment at line 173 say. | not executed; high | FileServe.HandleRangeAsWritten, FileServe.MalformedHeaderDiscrepancy | FileServe.HandleRange, FileServe.MalformedNeverPartial |
| file-service/src/main/java/io/audira/fileservice/controller/FileCompressionController.java:102-112 | `baseDirectory` is `null`, so `resolve` throws for every non-empty `filePath` and the handler answers `500`. The traversal check never runs. | `{"filePath": "audio-files/song.mp3"}` or `{"filePath": "../../etc/passwd"}`: both `500` | The storage root as base directory: `403` for names outside it, and an archive for names inside it. | not executed; high | CompressionApi.HandleCompressSingleAsWritten, CompressionApi.SingleAsWrittenNeverForbids | CompressionApi.HandleCompressSingle, CompressionApi.SingleRefusesEscape, CompressionApi.SingleArchivesInsideFile |

## Left out

- Spring plumbing is reduced to a status, header values and a body descriptor. This covers `ResponseEntity`, annotations, `UrlResource`, `MediaType.parseMediaType` and `@Value` injection.
- File-system I/O is a map from paths to bytes. Disk writes are returned as effects, and the archive's size is a parameter. Failures of `createDirectories` and of writing the archive are not modelled.
- Directories are not entries of the store. A directory named as input therefore counts as missing, and the model writes nothing. In Java `getFileSize` returns the directory's size without failing. `compressFiles` then fails in `addFileToZip`, after `compressed/` and a partial archive have been written. `compressSingleFile` fails there too, or earlier in `substring` when the directory's name has no dot, also after `compressed/` is created.
- Paths.ParsePath: the JVM's path encoding (`sun.jnu.encoding`) is taken to be UTF-8, so only NUL is refused. Under a C or POSIX locale `UnixPath` also refuses characters the encoding cannot represent.
- Symbolic links and `toRealPath` are not modelled. Paths are compared only syntactically, as `normalize` and `startsWith` do.
- The ZIP byte layout and DEFLATE are not modelled: an archive is its ordered list of entries.
- UUID generation is not modelled: the token is a parameter satisfying `IsUuidText`. Uniqueness under concurrent requests is reduced to `SingleNamesDifferByToken`.
- Spring's `HttpRange.parseRanges`, `getRangeStart` and `getRangeEnd` are replaced by `RangeHeader`, written from section 2.1 of RFC 7233. The exact refusals of Spring's parser, such as its limit on the number of ranges and its header length limit, are not modelled. An unsatisfiable first range is treated like a refused header. The stand-in also differs from Spring's `Long.parseLong` on what it accepts: it refuses signed numbers such as `bytes=0--0` or `bytes=-+5`, which Spring accepts, and it accepts numbers too large for a Java `long`, which Spring refuses.
- FileServe.HandleRangeAsWritten: its `500` for an unsatisfiable first range comes from the stand-in parser, not from Spring. Spring's `getRangeStart` does not check the start against the size. As written, `bytes=N-N` on an `N`-byte audio file gets `206` with `Content-Range: bytes N-(N-1)/N` and `Content-Length: 0`.
- The response body is not modelled as bytes. The controller hands the whole file to Spring with status `206` and `Content-Length` set to the window's length. Spring cuts a `Resource` body down to the requested range only for a `200` answer, so the bytes sent are the file's first `end - start + 1` bytes, not the window. They agree with the window only when it starts at 0. Spring's own `206` for a `200` answer to a `Range` request is not modelled either.
- `toLowerCase` is modelled on ASCII letters only. Other Unicode case mappings and locale effects, such as the Turkish dotless i, are not modelled.
- Java `long` overflow of the size total is not modelled: integers are unbounded.
- CompressionApi.Ratio: an exact `real`, not an IEEE `double`. The `"%.2f%%"` text of the multi-file body is not modelled. For an original size of 0 Java yields an infinite or NaN ratio; the model reports none (`ReportedRatio`).
- The exception messages that the JDK itself produces are stood in for by the exception's class name. This covers invalid paths, the null file name, the index error in `substring` and I/O errors. The service's own messages are exact, and so is the `duplicate entry: <name>` message of `ZipOutputStream`.
- The other limits of `ZipEntry` are not modelled, such as its refusal of names longer than 65535 bytes.
- A JSON `null` inside the `filePaths` list, which would throw in `resolve`, is not modelled.
- `Content-Type` is the MIME string as chosen; its parsing by `MediaType` is not modelled.

=== FILE: compression_api.dfy ===
/** `FileCompressionController`: the two `POST` endpoints that build an
    archive and report where to download it and how much it saved. */
module CompressionApi {
  import opened Results
  import opened Text
  import opened Paths
  import opened Storage
  import opened CompressionService

  /** The JSON bodies the endpoints answer with. */
  datatype Body =
    | ErrorBody(error: string)
    | ManyBody(message: string, zipFileUrl: string, zipFilePath: string, filesCompressed: nat,
               originalSize: nat, compressedSize: nat, compressionRatio: Option<real>)
    | SingleBody(url: string, ratio: Option<real>)

  datatype Response = Response(status: int, body: Body)

  /** A response together with the disk effects of the request. */
  datatype Handled = Handled(response: Response, effects: seq<Effect>)

  const NoFilesMessage: string := "Debe proporcionar al menos un archivo para comprimir"
  const NoNameMessage: string := "Debe proporcionar el nombre del archivo"
  const ManyFailurePrefix: string := "Error al comprimir archivos: "
  const SingleFailureMessage: string := "Error al comprimir"
  const ForbiddenMessage: string := "Acceso denegado: El archivo está fuera del directorio permitido"
  const ManySuccessMessage: string := "Archivos comprimidos exitosamente"
  const DownloadPrefix: string := "/api/files/"

  /** `e.getMessage()`. The texts of exceptions raised inside the JDK are
      stood in for by the exception's class name, except the `ZipException`
      for a repeated entry name, whose text is the JDK's. */
  function FailureText(f: Failure): string
  {
    match f
    case FileNotFound(m) => m
    case AccessDenied(m) => m
    case InvalidPath => "InvalidPathException"
    case NoFileName => "NullPointerException"
    case NoExtension => "StringIndexOutOfBoundsException"
    case ReadFailed => "IOException"
    case DuplicateEntry(name) => DuplicateMessage(name)
  }

  /** The message of the `ZipException` `putNextEntry` throws for a repeated name. */
  function DuplicateMessage(name: string): string
  {
    "duplicate entry: " + name
  }

  /** `baseUrl + "/api/files/" + zipFilePath`. */
  function DownloadUrl(baseUrl: string, zipPath: string): string
  {
    baseUrl + DownloadPrefix + zipPath
  }

  /** `(before - after) / before * 100`: the percentage of the original size
      the archive saved. Negative when the archive is larger. */
  function Ratio(before: nat, after: nat): (r: real)
    requires before > 0
    ensures r <= 100.0
    ensures r == 100.0 <==> after == 0
    ensures r == 0.0 <==> after == before
    ensures r < 0.0 <==> after > before
    ensures r * before as real / 100.0 == (before - after) as real
  {
    ((before - after) as real / before as real) * 100.0
  }

  /** The ratio reported; there is none for an empty original (where Java
      divides by zero and reports an infinite or undefined value). */
  function ReportedRatio(before: nat, after: nat): (r: Option<real>)
    ensures r.Some? <==> before > 0
    ensures r.Some? ==> r.value == Ratio(before, after)
  {
    if before > 0 then Some(Ratio(before, after)) else None
  }

  /** What `getFileSize` reports for each input, in order. */
  function FileSizes(root: Path, store: Store, inputs: seq<string>): seq<Result<nat, Failure>>
  {
    seq(|inputs|, i requires 0 <= i < |inputs| => GetFileSize(root, store, inputs[i]))
  }

  /** The summing loop over reported sizes: the first failure aborts it. */
  function SumSizes(sizes: seq<Result<nat, Failure>>): (r: Result<nat, Failure>)
    ensures r.Ok? <==> forall i :: 0 <= i < |sizes| ==> sizes[i].Ok?
  {
    if |sizes| == 0 then Ok(0)
    else
      match sizes[0]
      case Err(f) => Err(f)
      case Ok(n) =>
        assert forall i :: 1 <= i < |sizes| ==> sizes[i] == sizes[1..][i - 1];
        match SumSizes(sizes[1..])
        case Err(f) => Err(f)
        case Ok(t) => Ok(n + t)
  }

  /** The loop summing `getFileSize` over the inputs. */
  function TotalSize(root: Path, store: Store, inputs: seq<string>): (r: Result<nat, Failure>)
    ensures r.Ok? <==> forall i :: 0 <= i < |inputs| ==> GetFileSize(root, store, inputs[i]).Ok?
  {
    var sizes := FileSizes(root, store, inputs);
    assert forall i :: 0 <= i < |inputs| ==> sizes[i] == GetFileSize(root, store, inputs[i]);
    SumSizes(sizes)
  }

  /** `compressFiles` of the controller. `request` is the `filePaths` entry of
      the body, `token` the UUID the service draws and `archiveSize` the size
      of the archive it writes. */
  function HandleCompressMany(root: Path, baseUrl: string, store: Store, request: Option<seq<string>>,
                              token: string, archiveSize: nat): (h: Handled)
    requires IsRoot(root) && IsUuidText(token)
    ensures h.response.status in {200, 400, 500}
    ensures h.response.status == 400 <==> request.None? || request.value == []
    ensures h.response.status == 400 ==> h.effects == []
    ensures h.response.status == 500 ==> h.response.body.ErrorBody? && ManyFailurePrefix <= h.response.body.error
    ensures h.response.status == 200 ==>
      && h.response.body.ManyBody?
      && h.response.body.filesCompressed == |request.value|
      && h.response.body.zipFileUrl == DownloadUrl(baseUrl, h.response.body.zipFilePath)
  {
    if request.None? || request.value == [] then Handled(Response(400, ErrorBody(NoFilesMessage)), [])
    else
      var inputs := request.value;
      match TotalSize(root, store, inputs)
      case Err(f) => Handled(Response(500, ErrorBody(ManyFailurePrefix + FailureText(f))), [])
      case Ok(before) =>
        var job := CompressFiles(root, store, inputs, token);
        match job.result
        case Err(f) => Handled(Response(500, ErrorBody(ManyFailurePrefix + FailureText(f))), job.effects)
        case Ok(zipPath) =>
          var body := ManyBody(ManySuccessMessage, DownloadUrl(baseUrl, zipPath), zipPath, |inputs|,
                               before, archiveSize, ReportedRatio(before, archiveSize));
          Handled(Response(200, body), job.effects)
  }

  /** `compressSingleFile` of the controller as written: `baseDirectory` is
      `null`, so `resolve` throws for every non-empty name and the `catch`
      answers `500`. */
  function HandleCompressSingleAsWritten(request: Option<string>): (h: Handled)
    ensures h.effects == []
    ensures h.response.status == (if request.None? || request.value == "" then 400 else 500)
  {
    if request.None? || request.value == "" then Handled(Response(400, ErrorBody(NoNameMessage)), [])
    else Handled(Response(500, ErrorBody(SingleFailureMessage)), [])
  }

  /** `compressSingleFile` of the controller with `baseDirectory` the storage
      root, as its traversal check intends. */
  function HandleCompressSingle(root: Path, baseUrl: string, store: Store, request: Option<string>,
                                token: string, archiveSize: nat): (h: Handled)
    requires IsRoot(root) && IsUuidText(token)
    ensures h.response.status in {200, 400, 403, 500}
    ensures h.response.status == 400 <==> request.None? || request.value == ""
    ensures h.response.status == 403 ==> h.effects == []
    ensures h.response.status == 200 ==> h.response.body.SingleBody?
  {
    if request.None? || request.value == "" then Handled(Response(400, ErrorBody(NoNameMessage)), [])
    else
      match ParsePath(request.value)
      case None => Handled(Response(500, ErrorBody(SingleFailureMessage)), [])
      case Some(input) =>
        var resolved := ResolveUnder(root, input);
        if !StartsWith(resolved, root) then Handled(Response(403, ErrorBody(ForbiddenMessage)), [])
        else
          var safe := PathText(resolved);
          match GetFileSize(root, store, safe)
          case Err(_) => Handled(Response(500, ErrorBody(SingleFailureMessage)), [])
          case Ok(original) =>
            var job := CompressSingleFile(root, store, safe, token);
            match job.result
            case Err(_) => Handled(Response(500, ErrorBody(SingleFailureMessage)), job.effects)
            case Ok(zipPath) =>
              Handled(Response(200, SingleBody(DownloadUrl(baseUrl, zipPath), ReportedRatio(original, archiveSize))),
                      job.effects)
  }

  /** Three quarters saved is a ratio of 75. */
  lemma QuarterSizeIsSeventyFive()
    ensures Ratio(1000, 250) == 75.0
  {
  }

  lemma {:induction false} SumSizesAdditive(x: seq<Result<nat, Failure>>, y: seq<Result<nat, Failure>>)
    requires SumSizes(x).Ok? && SumSizes(y).Ok?
    ensures SumSizes(x + y) == Ok(SumSizes(x).value + SumSizes(y).value)
  {
    if |x| == 0 {
      assert x + y == y;
    } else {
      assert (x + y)[0] == x[0];
      assert (x + y)[1..] == x[1..] + y;
      SumSizesAdditive(x[1..], y);
    }
  }

  lemma FileSizesConcat(root: Path, store: Store, a: seq<string>, b: seq<string>)
    ensures FileSizes(root, store, a + b) == FileSizes(root, store, a) + FileSizes(root, store, b)
  {
    var whole := FileSizes(root, store, a + b);
    var parts := FileSizes(root, store, a) + FileSizes(root, store, b);
    forall i | 0 <= i < |a| + |b|
      ensures whole[i] == parts[i]
    {
      if i < |a| {
        assert (a + b)[i] == a[i];
      } else {
        assert (a + b)[i] == b[i - |a|];
      }
    }
  }

  /** The total is additive over the inputs, so it is the sum of the sizes
      whatever the grouping. */
  lemma TotalSizeAdditive(root: Path, store: Store, a: seq<string>, b: seq<string>)
    requires TotalSize(root, store, a).Ok? && TotalSize(root, store, b).Ok?
    ensures TotalSize(root, store, a + b) == Ok(TotalSize(root, store, a).value + TotalSize(root, store, b).value)
  {
    FileSizesConcat(root, store, a, b);
    SumSizesAdditive(FileSizes(root, store, a), FileSizes(root, store, b));
  }

  /** One file's size is what the total reports for it alone. */
  lemma TotalOfOne(root: Path, store: Store, input: string)
    requires GetFileSize(root, store, input).Ok?
    ensures TotalSize(root, store, [input]) == GetFileSize(root, store, input)
  {
    var sizes := FileSizes(root, store, [input]);
    assert sizes == [GetFileSize(root, store, input)];
    assert sizes[1..] == [];
    assert SumSizes(sizes[1..]) == Ok(0);
    assert TotalSize(root, store, [input]) == SumSizes(sizes);
  }

  /** The sizes are taken before the archive is started, so a missing file
      among the inputs is reported by name and nothing is written. */
  lemma MissingFileWritesNothing(root: Path, baseUrl: string, store: Store, inputs: seq<string>,
                                                    k: nat, token: string, archiveSize: nat)
    requires IsRoot(root) && IsUuidText(token)
    requires k < |inputs|
    requires forall i :: 0 <= i < k ==> GetFileSize(root, store, inputs[i]).Ok?
    requires SourceOf(root, inputs[k]).Some? && SourceOf(root, inputs[k]).value !in store
    ensures HandleCompressMany(root, baseUrl, store, Some(inputs), token, archiveSize) ==
      Handled(Response(500, ErrorBody(ManyFailurePrefix + NotFoundMessage(inputs[k]))), [])
  {
    TotalSizeFirstFailure(root, store, inputs, k);
  }

  lemma {:induction false} SumSizesFirstFailure(sizes: seq<Result<nat, Failure>>, k: nat)
    requires k < |sizes|
    requires forall i :: 0 <= i < k ==> sizes[i].Ok?
    requires sizes[k].Err?
    ensures SumSizes(sizes) == Err(sizes[k].error)
  {
    if k > 0 {
      assert forall i :: 0 <= i < k - 1 ==> sizes[1..][i] == sizes[i + 1];
      SumSizesFirstFailure(sizes[1..], k - 1);
    }
  }

  /** The total fails with the failure of the first input without a size. */
  lemma TotalSizeFirstFailure(root: Path, store: Store, inputs: seq<string>, k: nat)
    requires k < |inputs|
    requires forall i :: 0 <= i < k ==> GetFileSize(root, store, inputs[i]).Ok?
    requires GetFileSize(root, store, inputs[k]).Err?
    ensures TotalSize(root, store, inputs) == Err(GetFileSize(root, store, inputs[k]).error)
  {
    SumSizesFirstFailure(FileSizes(root, store, inputs), k);
  }

  /** When every file exists and can be read, the answer is `200` with the
      download URL of `compressed/<token>.zip`, the number of files, their
      total size, and an archive of one entry per file. */
  lemma ManySuccess(root: Path, baseUrl: string, store: Store, inputs: seq<string>, token: string, archiveSize: nat)
    requires IsRoot(root) && IsUuidText(token)
    requires inputs != []
    requires forall i :: 0 <= i < |inputs| ==> Archivable(root, store, inputs[i])
    requires DistinctEntryNames(root, inputs)
    ensures var h := HandleCompressMany(root, baseUrl, store, Some(inputs), token, archiveSize);
      && h.response.status == 200
      && h.response.body.zipFileUrl == baseUrl + "/api/files/compressed/" + token + ".zip"
      && h.response.body.filesCompressed == |inputs|
      && h.response.body.originalSize == TotalSize(root, store, inputs).value
      && h.response.body.compressedSize == archiveSize
      && h.response.body.compressionRatio == ReportedRatio(TotalSize(root, store, inputs).value, archiveSize)
      && h.effects == CompressFiles(root, store, inputs, token).effects
      && |h.effects[1].entries| == |inputs|
  {
    ArchiveHoldsSources(root, store, inputs, token);
    forall i | 0 <= i < |inputs|
      ensures GetFileSize(root, store, inputs[i]).Ok?
    {
      assert Archivable(root, store, inputs[i]);
    }
    var before := TotalSize(root, store, inputs).value;
    var job := CompressFiles(root, store, inputs, token);
    var zipPath := ArchiveDir + "/" + (token + ZipSuffix);
    assert job.result == Ok(zipPath);
    ArchiveUrl(baseUrl, token + ZipSuffix);
    var h := HandleCompressMany(root, baseUrl, store, Some(inputs), token, archiveSize);
    assert h == Handled(Response(200, ManyBody(ManySuccessMessage, DownloadUrl(baseUrl, zipPath), zipPath, |inputs|,
                                               before, archiveSize, ReportedRatio(before, archiveSize))), job.effects);
  }

  /** The same file named twice: its sizes add up, then the second
      `putNextEntry` throws, so the answer is `500` with the JDK's
      `duplicate entry` text, and the archive left behind holds the first
      entry alone. */
  lemma RepeatedInputFails(root: Path, baseUrl: string, store: Store, input: string, token: string, archiveSize: nat)
    requires IsRoot(root) && IsUuidText(token)
    requires Archivable(root, store, input)
    ensures var h := HandleCompressMany(root, baseUrl, store, Some([input, input]), token, archiveSize);
      && h.response == Response(500, ErrorBody(ManyFailurePrefix + DuplicateMessage(EntryFor(root, store, input).name)))
      && h.effects == [CreateDirectories(ArchiveDirectory(root)),
                       WriteArchive(Child(ArchiveDirectory(root), token + ZipSuffix), [EntryFor(root, store, input)])]
  {
    var inputs := [input, input];
    assert GetFileSize(root, store, inputs[0]).Ok? && GetFileSize(root, store, inputs[1]).Ok?;
    assert TotalSize(root, store, inputs).Ok?;
    assert inputs[..1] == [input];
    DuplicateNameAborts(root, store, inputs, 0, 1);
    assert AddAll(root, store, [input]).0 == [EntryFor(root, store, input)];
  }

  /** The download URL of an archive in `compressed/`. */
  lemma ArchiveUrl(baseUrl: string, zipName: string)
    ensures DownloadUrl(baseUrl, ArchiveDir + "/" + zipName) == baseUrl + "/api/files/compressed/" + zipName
  {
    assert DownloadPrefix + ArchiveDir + "/" == "/api/files/compressed/";
  }

  /** As written, the single-file endpoint never reaches its traversal check:
      every named file is answered `500` and nothing is ever archived. */
  lemma SingleAsWrittenNeverForbids(request: Option<string>)
    requires request.Some? && request.value != ""
    ensures HandleCompressSingleAsWritten(request) == Handled(Response(500, ErrorBody(SingleFailureMessage)), [])
  {
  }

  /** With the storage root as base directory, a name that resolves outside
      the root is answered `403` and nothing is written. */
  lemma SingleRefusesEscape(root: Path, baseUrl: string, store: Store, name: string, token: string, archiveSize: nat)
    requires IsRoot(root) && IsUuidText(token)
    requires name != "" && ParsePath(name).Some? && !Contained(root, ParsePath(name).value)
    ensures HandleCompressSingle(root, baseUrl, store, Some(name), token, archiveSize) ==
      Handled(Response(403, ErrorBody(ForbiddenMessage)), [])
  {
  }

  /** The checked text the controller passes on resolves back to the same
      file in the service. */
  lemma SafeTextResolvesBack(root: Path, input: Path)
    requires IsRoot(root) && ValidNames(input.names) && Contained(root, input)
    ensures SourceOf(root, PathText(ResolveUnder(root, input))) == Some(ResolveUnder(root, input))
    ensures Contained(root, ParsePath(PathText(ResolveUnder(root, input))).value)
  {
    var resolved := ResolveUnder(root, input);
    assert ValidNames(Resolve(root, input).names);
    PathTextRoundTrip(resolved);
    NormalizeFixesNormal(resolved);
  }

  /** With the storage root as base directory, a readable file with an
      extension inside the root is archived alone under its stem and the
      token's first eight characters, and the answer is `200` with its URL. */
  lemma SingleArchivesInsideFile(root: Path, baseUrl: string, store: Store, name: string, token: string,
                                 archiveSize: nat)
    requires IsRoot(root) && IsUuidText(token)
    requires name != "" && ParsePath(name).Some? && Contained(root, ParsePath(name).value)
    requires var src := ResolveUnder(root, ParsePath(name).value);
      src in store && store[src].readable && |src.names| > 0 && LastIndexOf(src.names[|src.names| - 1], '.') >= 0
    ensures var src := ResolveUnder(root, ParsePath(name).value);
      var original := src.names[|src.names| - 1];
      var zipName := original[..LastIndexOf(original, '.')] + "_" + token[..8] + ZipSuffix;
      var h := HandleCompressSingle(root, baseUrl, store, Some(name), token, archiveSize);
      && h.response == Response(200, SingleBody(baseUrl + "/api/files/compressed/" + zipName,
                                                ReportedRatio(|store[src].data|, archiveSize)))
      && h.effects == [CreateDirectories(ArchiveDirectory(root)),
                       WriteArchive(Child(ArchiveDirectory(root), zipName), [Entry(original, store[src].data)])]
  {
    var input := ParsePath(name).value;
    var src := ResolveUnder(root, input);
    SafeTextResolvesBack(root, input);
    var safe := PathText(src);
    assert GetFileSize(root, store, safe) == Ok(|store[src].data|);
    var original := src.names[|src.names| - 1];
    var zipName := original[..LastIndexOf(original, '.')] + "_" + token[..8] + ZipSuffix;
    assert SingleArchiveName(original, token) == Some(zipName);
    var job := CompressSingleFile(root, store, safe, token);
    assert job.result == Ok(ArchiveDir + "/" + zipName);
    SingleArchiveShape(root, store, safe, token);
    ArchiveUrl(baseUrl, zipName);
  }

  /** A non-empty list is answered `200` exactly when every input can be
      archived and no two share an entry name; every other list gets a `500`
      from the `catch`. */
  lemma ManySucceedsExactly(root: Path, baseUrl: string, store: Store, inputs: seq<string>, token: string,
                            archiveSize: nat)
    requires IsRoot(root) && IsUuidText(token) && inputs != []
    ensures var h := HandleCompressMany(root, baseUrl, store, Some(inputs), token, archiveSize);
      && (h.response.status == 200 <==>
          (forall i :: 0 <= i < |inputs| ==> Archivable(root, store, inputs[i])) && DistinctEntryNames(root, inputs))
      && (h.response.status != 200 ==> h.response.status == 500)
  {
    ArchiveHoldsSources(root, store, inputs, token);
    if forall i :: 0 <= i < |inputs| ==> Archivable(root, store, inputs[i]) {
      assert TotalSize(root, store, inputs).Ok?;
    }
  }

  /** With the storage root as base directory, a name inside the root is
      answered `200` exactly when its file exists, can be read and has a dot
      in its name; every other such name gets the `500` of the `catch`. */
  lemma SingleSucceedsExactly(root: Path, baseUrl: string, store: Store, name: string, token: string,
                              archiveSize: nat)
    requires IsRoot(root) && IsUuidText(token)
    requires name != "" && ParsePath(name).Some? && Contained(root, ParsePath(name).value)
    ensures var src := ResolveUnder(root, ParsePath(name).value);
      var h := HandleCompressSingle(root, baseUrl, store, Some(name), token, archiveSize);
      && (h.response.status == 200 <==>
          src in store && store[src].readable && |src.names| > 0 && LastIndexOf(src.names[|src.names| - 1], '.') >= 0)
      && (h.response.status != 200 ==> h.response == Response(500, ErrorBody(SingleFailureMessage)))
  {
    SafeTextResolvesBack(root, ParsePath(name).value);
  }
}

=== FILE: compression_service.dfy ===
/** `FileCompressionService`: building ZIP archives from stored files.
    An archive is modelled as its ordered list of named entries; the ZIP byte
    layout and DEFLATE are not modelled. The disk writes the service performs
    are returned as a list of effects, so that what happens before a failure
    can be stated. */
module CompressionService {
  import opened Results
  import opened Text
  import opened Paths
  import opened Storage

  /** One named entry of an archive. */
  datatype Entry = Entry(name: string, data: seq<byte>)

  /** The exceptions the service lets escape. */
  datatype Failure =
    | InvalidPath                        // InvalidPathException: a NUL character in a path
    | FileNotFound(message: string)      // FileNotFoundException
    | AccessDenied(message: string)      // SecurityException from the traversal guard
    | NoFileName                         // NullPointerException: getFileName() of `/`
    | NoExtension                        // StringIndexOutOfBoundsException: substring(0, -1)
    | ReadFailed                         // IOException opening an unreadable file
    | DuplicateEntry(name: string)       // ZipException: an entry of that name is already in the archive

  /** What the service does to the disk, in order. */
  datatype Effect =
    | CreateDirectories(dir: Path)
    | WriteArchive(file: Path, entries: seq<Entry>)

  /** The disk effects of one call and what it returns or throws. */
  datatype Job = Job(effects: seq<Effect>, result: Result<string, Failure>)

  const ArchiveDir: string := "compressed"
  const ZipSuffix: string := ".zip"
  const BufferSize: nat := 1024
  const DeniedMessage: string := "Acceso denegado: El archivo está fuera del directorio permitido."

  function NotFoundMessage(input: string): string
  {
    "Archivo no encontrado: " + input
  }

  predicate IsHexDigit(c: char)
  {
    '0' <= c <= '9' || 'a' <= c <= 'f'
  }

  /** `UUID.randomUUID().toString()`: 36 characters, lower-case hexadecimal
      digits with dashes at positions 8, 13, 18 and 23. */
  predicate IsUuidText(t: string)
  {
    |t| == 36 &&
    forall i :: 0 <= i < 36 ==>
      if i == 8 || i == 13 || i == 18 || i == 23 then t[i] == '-' else IsHexDigit(t[i])
  }

  /** `<root>/compressed`, where both methods write. */
  function ArchiveDirectory(root: Path): Path
  {
    Child(root, ArchiveDir)
  }

  /** `fileStorageLocation.resolve(input).normalize()`, or `None` when the
      input holds a NUL character. */
  function SourceOf(root: Path, input: string): Option<Path>
  {
    match ParsePath(input)
    case None => None
    case Some(p) => Some(ResolveUnder(root, p))
  }

  /** An input `compressFiles` archives without throwing. */
  predicate Archivable(root: Path, store: Store, input: string)
  {
    var src := SourceOf(root, input);
    src.Some? && src.value in store && |src.value.names| > 0 && store[src.value].readable
  }

  /** `sourceFile.getFileName()`: the last name of the resolved input, or
      `None` when the input is refused or resolves to `/`. */
  function EntryName(root: Path, input: string): Option<string>
  {
    match SourceOf(root, input)
    case None => None
    case Some(src) => if |src.names| == 0 then None else Some(src.names[|src.names| - 1])
  }

  /** The entry an archivable input becomes: its file name and its bytes. */
  function EntryFor(root: Path, store: Store, input: string): Entry
    requires Archivable(root, store, input)
  {
    Entry(EntryName(root, input).value, store[SourceOf(root, input).value].data)
  }

  /** No two inputs name their entries alike. */
  predicate DistinctEntryNames(root: Path, inputs: seq<string>)
  {
    forall i, j :: 0 <= i < j < |inputs| ==> EntryName(root, inputs[i]) != EntryName(root, inputs[j])
  }

  /** `addFileToZip` on one stored file: the entry is opened before the file
      is; opening an unreadable file throws and leaves the entry empty. */
  function AddFile(file: StoredFile, name: string): (r: (seq<Entry>, Option<Failure>))
  {
    if file.readable then ([Entry(name, file.data)], None) else ([Entry(name, [])], Some(ReadFailed))
  }

  /** The entry names of the inputs, in order. */
  function EntryNames(root: Path, inputs: seq<string>): (names: seq<Option<string>>)
    ensures |names| == |inputs|
    ensures forall i :: 0 <= i < |inputs| ==> names[i] == EntryName(root, inputs[i])
  {
    seq(|inputs|, i requires 0 <= i < |inputs| => EntryName(root, inputs[i]))
  }

  /** Names that are all present, none of them in `used`, no two alike: the
      names `putNextEntry` accepts one after the other. */
  predicate FreshNames(names: seq<Option<string>>, used: set<string>)
  {
    && (forall i :: 0 <= i < |names| ==> names[i].Some? && names[i].value !in used)
    && (forall i, j :: 0 <= i < j < |names| ==> names[i] != names[j])
  }

  /** `FreshNames` one name at a time. */
  lemma FreshNamesStep(names: seq<Option<string>>, used: set<string>)
    requires |names| > 0
    ensures FreshNames(names, used) <==>
      names[0].Some? && names[0].value !in used && FreshNames(names[1..], used + {names[0].value})
  {
    var rest := names[1..];
    if names[0].Some? && names[0].value !in used && FreshNames(rest, used + {names[0].value}) {
      forall i, j | 0 <= i < j < |names|
        ensures names[i] != names[j]
      {
        assert names[j] == rest[j - 1];
        if i > 0 {
          assert names[i] == rest[i - 1];
        }
      }
    }
    if FreshNames(names, used) {
      forall i, j | 0 <= i < j < |rest|
        ensures rest[i] != rest[j]
      {
        assert names[i + 1] != names[j + 1];
      }
      forall i | 0 <= i < |rest|
        ensures rest[i].value !in used + {names[0].value}
      {
        assert names[0] != names[i + 1];
      }
    }
  }

  /** Every input can be archived under a name not in `used`, and no two
      inputs share a name. */
  predicate ArchivableFresh(root: Path, store: Store, inputs: seq<string>, used: set<string>)
  {
    (forall i :: 0 <= i < |inputs| ==> Archivable(root, store, inputs[i])) && FreshNames(EntryNames(root, inputs), used)
  }

  /** `ArchivableFresh` one input at a time: the first input is fresh, and the
      rest are fresh once its name is used. */
  lemma FreshStep(root: Path, store: Store, inputs: seq<string>, used: set<string>)
    requires |inputs| > 0
    ensures ArchivableFresh(root, store, inputs, used) <==>
      && Archivable(root, store, inputs[0])
      && EntryName(root, inputs[0]).value !in used
      && ArchivableFresh(root, store, inputs[1..], used + {EntryName(root, inputs[0]).value})
  {
    var names := EntryNames(root, inputs);
    assert EntryNames(root, inputs[1..]) == names[1..];
    FreshNamesStep(names, used);
    assert forall i :: 1 <= i < |inputs| ==> inputs[i] == inputs[1..][i - 1];
  }

  /** With no name used yet, `ArchivableFresh` is archivable inputs with
      distinct names. */
  lemma FreshFromNothing(root: Path, store: Store, inputs: seq<string>)
    ensures ArchivableFresh(root, store, inputs, {}) <==>
      (forall i :: 0 <= i < |inputs| ==> Archivable(root, store, inputs[i])) && DistinctEntryNames(root, inputs)
  {
  }

  /** One pass of the loop of `compressFiles` on `input`, with the names in
      `used` already in the archive: the entries written and the exception
      thrown, if any. `putNextEntry` refuses a name already used before the
      file is opened. */
  function AddOne(root: Path, store: Store, input: string, used: set<string>): (r: (seq<Entry>, Option<Failure>))
    ensures r.1.None? <==> Archivable(root, store, input) && EntryName(root, input).value !in used
    ensures r.1.None? ==> r.0 == [EntryFor(root, store, input)]
    ensures |r.0| <= 1
  {
    match SourceOf(root, input)
    case None => ([], Some(InvalidPath))
    case Some(src) =>
      if src !in store then ([], Some(FileNotFound(NotFoundMessage(input))))
      else if |src.names| == 0 then ([], Some(NoFileName))
      else
        var name := src.names[|src.names| - 1];
        if name in used then ([], Some(DuplicateEntry(name)))
        else AddFile(store[src], name)
  }

  /** The loop of `compressFiles` after the entries named in `used` have been
      written: the entries it writes, and the exception that stopped it, if
      any. */
  function AddFrom(root: Path, store: Store, inputs: seq<string>, used: set<string>): (r: (seq<Entry>, Option<Failure>))
    ensures |r.0| <= |inputs|
  {
    if |inputs| == 0 then ([], None)
    else
      var (first, failure) := AddOne(root, store, inputs[0], used);
      if failure.Some? then (first, failure)
      else
        var (rest, later) := AddFrom(root, store, inputs[1..], used + {EntryName(root, inputs[0]).value});
        (first + rest, later)
  }

  /** The loop completes exactly when every input can be archived under a
      fresh name. */
  lemma {:induction false} AddFromCompletes(root: Path, store: Store, inputs: seq<string>, used: set<string>)
    ensures AddFrom(root, store, inputs, used).1.None? <==> ArchivableFresh(root, store, inputs, used)
  {
    if |inputs| > 0 {
      FreshStep(root, store, inputs, used);
      if AddOne(root, store, inputs[0], used).1.None? {
        AddFromCompletes(root, store, inputs[1..], used + {EntryName(root, inputs[0]).value});
      }
    }
  }

  /** A completed loop writes one entry per input, in order. */
  lemma {:induction false} AddFromEntries(root: Path, store: Store, inputs: seq<string>, used: set<string>)
    requires AddFrom(root, store, inputs, used).1.None?
    ensures |AddFrom(root, store, inputs, used).0| == |inputs|
    ensures forall i :: 0 <= i < |inputs| ==>
      Archivable(root, store, inputs[i]) && AddFrom(root, store, inputs, used).0[i] == EntryFor(root, store, inputs[i])
  {
    if |inputs| > 0 {
      var first := AddOne(root, store, inputs[0], used).0;
      var used' := used + {EntryName(root, inputs[0]).value};
      var rest := AddFrom(root, store, inputs[1..], used').0;
      AddFromEntries(root, store, inputs[1..], used');
      assert AddFrom(root, store, inputs, used).0 == first + rest;
      forall i | 1 <= i < |inputs|
        ensures Archivable(root, store, inputs[i]) && (first + rest)[i] == EntryFor(root, store, inputs[i])
      {
        assert inputs[i] == inputs[1..][i - 1];
      }
    }
  }

  /** The loop of `compressFiles`. */
  function AddAll(root: Path, store: Store, inputs: seq<string>): (r: (seq<Entry>, Option<Failure>))
    ensures r.1.None? <==>
      (forall i :: 0 <= i < |inputs| ==> Archivable(root, store, inputs[i])) && DistinctEntryNames(root, inputs)
    ensures r.1.None? ==> |r.0| == |inputs|
    ensures r.1.None? ==> forall i :: 0 <= i < |inputs| ==> r.0[i] == EntryFor(root, store, inputs[i])
    ensures |r.0| <= |inputs|
  {
    FreshFromNothing(root, store, inputs);
    AddFromCompletes(root, store, inputs, {});
    var r := AddFrom(root, store, inputs, {});
    if r.1.None? then AddFromEntries(root, store, inputs, {}); r else r
  }

  /** `compressFiles`. The archive is named by the token alone. There is no
      containment check: every input is only checked for existence. */
  function CompressFiles(root: Path, store: Store, inputs: seq<string>, token: string): (job: Job)
    requires IsRoot(root) && IsUuidText(token)
    ensures |job.effects| == 2 && job.effects[0] == CreateDirectories(ArchiveDirectory(root))
    ensures job.effects[1].WriteArchive? && job.effects[1].file == Child(ArchiveDirectory(root), token + ZipSuffix)
    ensures job.result.Ok? ==> job.result.value == ArchiveDir + "/" + token + ZipSuffix
  {
    var dir := ArchiveDirectory(root);
    var zipName := token + ZipSuffix;
    var (entries, failure) := AddAll(root, store, inputs);
    Job([CreateDirectories(dir), WriteArchive(Child(dir, zipName), entries)],
        if failure.None? then Ok(ArchiveDir + "/" + zipName) else Err(failure.value))
  }

  /** The archive name of `compressSingleFile`: the stem before the last dot,
      `_`, the first eight characters of the token, `.zip`. */
  function SingleArchiveName(original: string, token: string): Option<string>
    requires |token| >= 8
  {
    var dot := LastIndexOf(original, '.');
    if dot < 0 then None else Some(original[..dot] + "_" + token[..8] + ZipSuffix)
  }

  /** `compressSingleFile`. */
  function CompressSingleFile(root: Path, store: Store, input: string, token: string): (job: Job)
    requires IsRoot(root) && IsUuidText(token)
    ensures job.result.Ok? ==> Archivable(root, store, input) && Contained(root, ParsePath(input).value)
  {
    match SourceOf(root, input)
    case None => Job([], Err(InvalidPath))
    case Some(src) =>
      if !StartsWith(src, root) then Job([], Err(AccessDenied(DeniedMessage)))
      else if src !in store then Job([], Err(FileNotFound(NotFoundMessage(input))))
      else
        var dir := ArchiveDirectory(root);
        var made := [CreateDirectories(dir)];
        if |src.names| == 0 then Job(made, Err(NoFileName))
        else
          var original := src.names[|src.names| - 1];
          match SingleArchiveName(original, token)
          case None => Job(made, Err(NoExtension))
          case Some(zipName) =>
            var (entries, failure) := AddFile(store[src], original);
            Job(made + [WriteArchive(Child(dir, zipName), entries)],
                if failure.None? then Ok(ArchiveDir + "/" + zipName) else Err(failure.value))
  }

  /** `getFileSize`. */
  function GetFileSize(root: Path, store: Store, input: string): (r: Result<nat, Failure>)
    ensures r.Ok? <==> SourceOf(root, input).Some? && SourceOf(root, input).value in store
    ensures r.Ok? ==> r.value == |store[SourceOf(root, input).value].data|
    ensures SourceOf(root, input).Some? && SourceOf(root, input).value !in store ==>
      r == Err(FileNotFound(NotFoundMessage(input)))
  {
    match SourceOf(root, input)
    case None => Err(InvalidPath)
    case Some(p) => if p !in store then Err(FileNotFound(NotFoundMessage(input))) else Ok(|store[p].data|)
  }

  function Sum(xs: seq<nat>): nat
  {
    if |xs| == 0 then 0 else Sum(xs[..|xs| - 1]) + xs[|xs| - 1]
  }

  /** The copy loop of `addFileToZip`: each read fills at most the 1024-byte
      buffer, each write passes on exactly the bytes read, and the loop ends
      at the end of the input. A read may return fewer bytes than asked for;
      `chunks` records how many each one returned. */
  method CopyEntry(source: seq<byte>) returns (written: seq<byte>, chunks: seq<nat>)
    ensures written == source
    ensures forall k :: 0 <= k < |chunks| ==> 0 < chunks[k] <= BufferSize
    ensures Sum(chunks) == |source|
  {
    written := [];
    chunks := [];
    var pos := 0;
    while pos < |source|
      invariant pos <= |source|
      invariant written == source[..pos]
      invariant Sum(chunks) == pos
      invariant forall k :: 0 <= k < |chunks| ==> 0 < chunks[k] <= BufferSize
    {
      var available := |source| - pos;
      var most := if available < BufferSize then available else BufferSize;
      var length :| 0 < length <= most;
      assert (chunks + [length])[..|chunks|] == chunks;
      written := written + source[pos..pos + length];
      chunks := chunks + [length];
      pos := pos + length;
    }
    assert source[..pos] == source;
  }

  /** Each input becomes exactly one entry, in input order, named by the last
      name of its normalized path and holding the file's bytes: extracting the
      archive gives back every file and its name. The job completes exactly
      when every input can be archived and no two share an entry name. */
  lemma ArchiveHoldsSources(root: Path, store: Store, inputs: seq<string>, token: string)
    requires IsRoot(root) && IsUuidText(token)
    ensures var job := CompressFiles(root, store, inputs, token);
      job.result.Ok? <==>
        (forall i :: 0 <= i < |inputs| ==> Archivable(root, store, inputs[i])) && DistinctEntryNames(root, inputs)
    ensures var job := CompressFiles(root, store, inputs, token);
      job.result.Ok? ==>
        && |job.effects[1].entries| == |inputs|
        && forall i :: 0 <= i < |inputs| ==> job.effects[1].entries[i] == EntryFor(root, store, inputs[i])
  {
  }

  /** The job stops at the first input whose file is missing: that input is
      named in the exception, and only the entries before it were written. */
  lemma MissingInputAborts(root: Path, store: Store, inputs: seq<string>, k: nat)
    requires k < |inputs|
    requires forall i :: 0 <= i < k ==> Archivable(root, store, inputs[i])
    requires DistinctEntryNames(root, inputs[..k])
    requires SourceOf(root, inputs[k]).Some? && SourceOf(root, inputs[k]).value !in store
    ensures AddAll(root, store, inputs).1 == Some(FileNotFound(NotFoundMessage(inputs[k])))
    ensures AddAll(root, store, inputs).0 == AddAll(root, store, inputs[..k]).0
  {
    FreshFromNothing(root, store, inputs[..k]);
    MissingFromAborts(root, store, inputs, k, {});
  }

  lemma {:induction false} MissingFromAborts(root: Path, store: Store, inputs: seq<string>, k: nat, used: set<string>)
    requires k < |inputs|
    requires ArchivableFresh(root, store, inputs[..k], used)
    requires SourceOf(root, inputs[k]).Some? && SourceOf(root, inputs[k]).value !in store
    ensures AddFrom(root, store, inputs, used).1 == Some(FileNotFound(NotFoundMessage(inputs[k])))
    ensures AddFrom(root, store, inputs, used).0 == AddFrom(root, store, inputs[..k], used).0
  {
    if k > 0 {
      var used' := PrefixStep(root, store, inputs, k, used);
      MissingFromAborts(root, store, inputs[1..], k - 1, used');
    }
  }

  /** One step of the loop over a prefix of inputs that is archived: the loop
      over the whole list and over the prefix both go on with the rest, with
      the first entry's name used. */
  lemma PrefixStep(root: Path, store: Store, inputs: seq<string>, k: nat, used: set<string>) returns (used': set<string>)
    requires 0 < k < |inputs|
    requires ArchivableFresh(root, store, inputs[..k], used)
    ensures Archivable(root, store, inputs[0]) && used' == used + {EntryName(root, inputs[0]).value}
    ensures ArchivableFresh(root, store, inputs[1..][..k - 1], used')
    ensures inputs[1..][k - 1] == inputs[k]
    ensures var whole := AddFrom(root, store, inputs[1..], used');
      AddFrom(root, store, inputs, used) == ([EntryFor(root, store, inputs[0])] + whole.0, whole.1)
    ensures var prefix := AddFrom(root, store, inputs[1..][..k - 1], used');
      AddFrom(root, store, inputs[..k], used) == ([EntryFor(root, store, inputs[0])] + prefix.0, prefix.1)
  {
    FreshStep(root, store, inputs[..k], used);
    assert inputs[..k][0] == inputs[0];
    assert inputs[..k][1..] == inputs[1..][..k - 1];
    used' := used + {EntryName(root, inputs[0]).value};
    AddFromStep(root, store, inputs, used);
    AddFromStep(root, store, inputs[..k], used);
  }

  /** One step of the loop over an input that is archived. */
  lemma AddFromStep(root: Path, store: Store, inputs: seq<string>, used: set<string>)
    requires |inputs| > 0 && Archivable(root, store, inputs[0]) && EntryName(root, inputs[0]).value !in used
    ensures var rest := AddFrom(root, store, inputs[1..], used + {EntryName(root, inputs[0]).value});
      AddFrom(root, store, inputs, used) == ([EntryFor(root, store, inputs[0])] + rest.0, rest.1)
  {
  }

  /** The job stops at the first input whose entry name is already in the
      archive, with the JDK's `duplicate entry` exception: two files with the
      same name in different folders cannot be archived together. Only the
      entries before it were written. */
  lemma DuplicateNameAborts(root: Path, store: Store, inputs: seq<string>, j: nat, k: nat)
    requires j < k < |inputs|
    requires forall i :: 0 <= i < k ==> Archivable(root, store, inputs[i])
    requires DistinctEntryNames(root, inputs[..k])
    requires SourceOf(root, inputs[k]).Some? && SourceOf(root, inputs[k]).value in store
    requires EntryName(root, inputs[k]) == EntryName(root, inputs[j])
    ensures AddAll(root, store, inputs).1 == Some(DuplicateEntry(EntryFor(root, store, inputs[j]).name))
    ensures AddAll(root, store, inputs).0 == AddAll(root, store, inputs[..k]).0
  {
    FreshFromNothing(root, store, inputs[..k]);
    DuplicateFromAborts(root, store, inputs, k, {});
  }

  lemma {:induction false} DuplicateFromAborts(root: Path, store: Store, inputs: seq<string>, k: nat, used: set<string>)
    requires k < |inputs|
    requires ArchivableFresh(root, store, inputs[..k], used)
    requires SourceOf(root, inputs[k]).Some? && SourceOf(root, inputs[k]).value in store
    requires EntryName(root, inputs[k]).Some?
    requires EntryName(root, inputs[k]).value in used ||
      exists j :: 0 <= j < k && EntryName(root, inputs[j]) == EntryName(root, inputs[k])
    ensures AddFrom(root, store, inputs, used).1 == Some(DuplicateEntry(EntryName(root, inputs[k]).value))
    ensures AddFrom(root, store, inputs, used).0 == AddFrom(root, store, inputs[..k], used).0
  {
    if k > 0 {
      var used' := PrefixStep(root, store, inputs, k, used);
      DuplicateWitnessStep(root, inputs, k, used);
      DuplicateFromAborts(root, store, inputs[1..], k - 1, used');
    } else {
      var src := SourceOf(root, inputs[0]).value;
      assert EntryName(root, inputs[0]) == Some(src.names[|src.names| - 1]);
    }
  }

  /** An earlier name equal to the name at `k` is, after the first step,
      either the first entry's name or still an earlier one. */
  lemma DuplicateWitnessStep(root: Path, inputs: seq<string>, k: nat, used: set<string>)
    requires 0 < k < |inputs|
    requires EntryName(root, inputs[0]).Some? && EntryName(root, inputs[k]).Some?
    requires EntryName(root, inputs[k]).value in used ||
      exists j :: 0 <= j < k && EntryName(root, inputs[j]) == EntryName(root, inputs[k])
    ensures var rest := inputs[1..];
      var used' := used + {EntryName(root, inputs[0]).value};
      && rest[k - 1] == inputs[k]
      && (EntryName(root, rest[k - 1]).value in used' ||
          exists j :: 0 <= j < k - 1 && EntryName(root, rest[j]) == EntryName(root, rest[k - 1]))
  {
    var rest := inputs[1..];
    var used' := used + {EntryName(root, inputs[0]).value};
    if EntryName(root, inputs[k]).value !in used' {
      var j :| 0 <= j < k && EntryName(root, inputs[j]) == EntryName(root, inputs[k]);
      assert j > 0 && rest[j - 1] == inputs[j];
    }
  }

  lemma SplitClimbToSecret(input: string)
    requires input == "../secret"
    ensures Split(input, '/') == ["..", "secret"]
  {
    IndexOfFirst(input, '/', 2);
    assert input[..2] == "..";
    var rest := input[3..];
    assert rest == "secret";
    assert forall i :: 0 <= i < |rest| ==> rest[i] != '/';
    assert IndexOf(rest, '/') == |rest|;
  }

  lemma ParseClimbToSecret(input: string)
    requires input == "../secret"
    ensures ParsePath(input) == Some(Path(false, ["..", "secret"]))
  {
    SplitClimbToSecret(input);
    assert forall i :: 0 <= i < |input| ==> input[i] != NulChar;
    NonEmptyKeepsAll(["..", "secret"]);
  }

  lemma SecretSource(root: Path)
    requires root == Path(true, ["srv", "uploads"])
    ensures SourceOf(root, "../secret") == Some(Path(true, ["srv", "secret"]))
  {
    ParseClimbToSecret("../secret");
    var climb := Path(false, ["..", "secret"]);
    assert Resolve(root, climb).names == ["srv", "uploads", "..", "secret"];
    SecretFold();
  }

  lemma UploadsIsRoot()
    ensures IsRoot(Path(true, ["srv", "uploads"]))
  {
    assert ValidName("srv") && ValidName("uploads");
  }

  lemma SecretFold()
    ensures Fold(true, [], ["srv", "uploads", "..", "secret"]) == ["srv", "secret"]
  {
  }

  lemma SecretOutsideUploads()
    ensures !Contained(Path(true, ["srv", "uploads"]), Path(false, ["..", "secret"]))
  {
    assert Fold(true, [], ["srv", "uploads", "..", "secret"]) == ["srv", "secret"];
  }

  /** `compressFiles` archives a file outside the storage root: its inputs
      are not confined. */
  lemma MultiFileNotConfined(token: string)
    requires IsUuidText(token)
    ensures var root := Path(true, ["srv", "uploads"]);
      var store := map[Path(true, ["srv", "secret"]) := StoredFile([7], true)];
      var job := CompressFiles(root, store, ["../secret"], token);
      && !Contained(root, Path(false, ["..", "secret"]))
      && job.result.Ok?
      && job.effects[1].entries == [Entry("secret", [7])]
  {
    var root := Path(true, ["srv", "uploads"]);
    var store := map[Path(true, ["srv", "secret"]) := StoredFile([7], true)];
    UploadsIsRoot();
    SecretSource(root);
    SecretOutsideUploads();
    assert Archivable(root, store, "../secret");
    ArchiveHoldsSources(root, store, ["../secret"], token);
    var entries := CompressFiles(root, store, ["../secret"], token).effects[1].entries;
    assert entries[0] == EntryFor(root, store, "../secret") == Entry("secret", [7]);
    assert entries == [entries[0]];
  }

  /** The guard runs first: an input that resolves outside the root is
      refused before its existence is checked and before anything is created. */
  lemma EscapeRefusedFirst(root: Path, store: Store, input: string, token: string)
    requires IsRoot(root) && IsUuidText(token)
    requires ParsePath(input).Some? && !Contained(root, ParsePath(input).value)
    ensures CompressSingleFile(root, store, input, token) == Job([], Err(AccessDenied(DeniedMessage)))
  {
  }

  /** A missing file inside the root is reported by name, with nothing created. */
  lemma SingleMissingNotFound(root: Path, store: Store, input: string, token: string)
    requires IsRoot(root) && IsUuidText(token)
    requires ParsePath(input).Some? && Contained(root, ParsePath(input).value)
    requires SourceOf(root, input).value !in store
    ensures CompressSingleFile(root, store, input, token) == Job([], Err(FileNotFound(NotFoundMessage(input))))
  {
  }

  /** A missing file is the same `FileNotFoundException` in all three
      operations (for `compressFiles`, when it is the first failing input). */
  lemma MissingSameEverywhere(root: Path, store: Store, input: string, token: string)
    requires IsRoot(root) && IsUuidText(token)
    requires SourceOf(root, input).Some? && SourceOf(root, input).value !in store
    ensures GetFileSize(root, store, input) == Err(FileNotFound(NotFoundMessage(input)))
    ensures CompressFiles(root, store, [input], token).result == Err(FileNotFound(NotFoundMessage(input)))
    ensures Contained(root, ParsePath(input).value) ==>
      CompressSingleFile(root, store, input, token).result == Err(FileNotFound(NotFoundMessage(input)))
  {
  }

  /** A successful single-file archive: named stem, `_`, eight token
      characters, `.zip`, under `compressed/`, holding one entry with the
      original name and bytes. */
  lemma SingleArchiveShape(root: Path, store: Store, input: string, token: string)
    requires IsRoot(root) && IsUuidText(token)
    requires CompressSingleFile(root, store, input, token).result.Ok?
    ensures var src := SourceOf(root, input).value;
      var original := src.names[|src.names| - 1];
      var dot := LastIndexOf(original, '.');
      var zipName := original[..dot] + "_" + token[..8] + ZipSuffix;
      var job := CompressSingleFile(root, store, input, token);
      && 0 <= dot
      && job.result.value == ArchiveDir + "/" + zipName
      && job.effects == [CreateDirectories(ArchiveDirectory(root)),
                         WriteArchive(Child(ArchiveDirectory(root), zipName), [Entry(original, store[src].data)])]
  {
  }

  /** A file name without a dot fails in `substring`, after the directory
      is created and before any archive is written. */
  lemma SingleWithoutDotFails(root: Path, store: Store, input: string, token: string)
    requires IsRoot(root) && IsUuidText(token)
    requires ParsePath(input).Some? && Contained(root, ParsePath(input).value)
    requires var src := SourceOf(root, input).value; src in store && |src.names| > 0 && '.' !in src.names[|src.names| - 1]
    ensures CompressSingleFile(root, store, input, token) == Job([CreateDirectories(ArchiveDirectory(root))], Err(NoExtension))
  {
  }

  /** Two single-file archives of the same file get different paths exactly
      when the first eight characters of their tokens differ. */
  lemma SingleNamesDifferByToken(original: string, token1: string, token2: string)
    requires IsUuidText(token1) && IsUuidText(token2)
    requires SingleArchiveName(original, token1).Some?
    ensures SingleArchiveName(original, token2).Some?
    ensures SingleArchiveName(original, token1) != SingleArchiveName(original, token2) <==> token1[..8] != token2[..8]
  {
    var stem := original[..LastIndexOf(original, '.')];
    var a := stem + "_" + token1[..8] + ZipSuffix;
    var b := stem + "_" + token2[..8] + ZipSuffix;
    if a == b {
      assert a[|stem| + 1..|stem| + 9] == token1[..8];
      assert b[|stem| + 1..|stem| + 9] == token2[..8];
    }
  }

  /** The size reported is the stored file's, and only existing files have one. */
  lemma SizeOfExistingFile(root: Path, store: Store, input: string, p: Path)
    requires SourceOf(root, input) == Some(p) && p in store
    ensures GetFileSize(root, store, input) == Ok(|store[p].data|)
  {
  }
}

=== FILE: content_types.dfy ===
/** Extension extraction and MIME classification of `FileServeController`
    (`determineContentType` and `isAudioFile`). */
module ContentTypes {
  import opened Text

  /** `fileName.substring(fileName.lastIndexOf('.') + 1).toLowerCase()`:
      the text after the last dot, lower-cased; a name without a dot is its
      own extension. */
  function Extension(fileName: string): (ext: string)
    ensures |ext| <= |fileName|
    ensures var k := |fileName| - |ext|;
      && ext == ToLower(fileName[k..])
      && '.' !in fileName[k..]
      && (k == 0 || fileName[k - 1] == '.')
  {
    var dot := LastIndexOf(fileName, '.');
    var ext := ToLower(fileName[dot + 1..]);
    assert fileName[|fileName| - |ext|..] == fileName[dot + 1..];
    ext
  }

  const DefaultType: string := "application/octet-stream"

  /** The `switch` of `determineContentType`, on an extracted extension. */
  function MimeOf(ext: string): string
  {
    match ext
    case "jpg" => "image/jpeg"
    case "jpeg" => "image/jpeg"
    case "png" => "image/png"
    case "gif" => "image/gif"
    case "webp" => "image/webp"
    case "mp3" => "audio/mpeg"
    case "wav" => "audio/wav"
    case "flac" => "audio/flac"
    case "midi" => "audio/midi"
    case "mid" => "audio/midi"
    case _ => DefaultType
  }

  /** `determineContentType`. */
  function ContentType(fileName: string): string
  {
    MimeOf(Extension(fileName))
  }

  /** The test of `isAudioFile`, on an extracted extension. */
  predicate IsAudioExtension(ext: string)
  {
    ext == "mp3" || ext == "wav" || ext == "flac" || ext == "midi" || ext == "mid"
  }

  /** `isAudioFile`. */
  predicate IsAudio(fileName: string)
  {
    IsAudioExtension(Extension(fileName))
  }

  /** The documented table of known extensions, as an independent reference. */
  const KnownTypes: map<string, string> := map[
    "jpg" := "image/jpeg", "jpeg" := "image/jpeg", "png" := "image/png",
    "gif" := "image/gif", "webp" := "image/webp", "mp3" := "audio/mpeg",
    "wav" := "audio/wav", "flac" := "audio/flac", "mid" := "audio/midi",
    "midi" := "audio/midi"]

  const AudioPrefix: string := "audio/"

  /** The classification is total and follows the table; every other
      extension, the empty one included, falls back to the default type. */
  lemma ContentTypeFollowsTable(fileName: string)
    ensures Extension(fileName) in KnownTypes ==> ContentType(fileName) == KnownTypes[Extension(fileName)]
    ensures Extension(fileName) !in KnownTypes ==> ContentType(fileName) == DefaultType
  {
    MimeFollowsTable(Extension(fileName));
  }

  lemma MimeFollowsTable(ext: string)
    ensures ext in KnownTypes ==> MimeOf(ext) == KnownTypes[ext]
    ensures ext !in KnownTypes ==> MimeOf(ext) == DefaultType
  {
    if ext !in KnownTypes {
      assert ext != "jpg" && ext != "jpeg" && ext != "png" && ext != "gif" && ext != "webp";
      assert ext != "mp3" && ext != "wav" && ext != "flac" && ext != "mid" && ext != "midi";
    }
  }

  /** The streaming check and the classification agree: a name is audio
      exactly when its MIME type is an `audio/` type. */
  lemma AudioIffAudioType(fileName: string)
    ensures IsAudio(fileName) <==> AudioPrefix <= ContentType(fileName)
  {
    AudioExtensionIffAudioMime(Extension(fileName));
  }

  lemma AudioExtensionIffAudioMime(ext: string)
    ensures IsAudioExtension(ext) <==> AudioPrefix <= MimeOf(ext)
  {
    var t := MimeOf(ext);
    MimeFollowsTable(ext);
    if ext in KnownTypes && !IsAudioExtension(ext) {
      assert t[0] == 'i';
    } else if ext !in KnownTypes {
      assert t == DefaultType && t[1] == 'p';
    }
  }

  /** Lower-casing keeps every dot where it was. */
  lemma ToLowerKeepsDots(s: string)
    ensures forall i :: 0 <= i < |s| ==> (ToLower(s)[i] == '.' <==> s[i] == '.')
  {
    forall i | 0 <= i < |s|
      ensures ToLower(s)[i] == '.' <==> s[i] == '.'
    {
      LowerCharIsDot(s[i]);
    }
  }

  /** Classification ignores letter case. */
  lemma {:induction false} ClassificationIgnoresCase(fileName: string)
    ensures Extension(ToLower(fileName)) == Extension(fileName)
    ensures ContentType(ToLower(fileName)) == ContentType(fileName)
    ensures IsAudio(ToLower(fileName)) == IsAudio(fileName)
  {
    var lower := ToLower(fileName);
    ToLowerKeepsDots(fileName);
    var e := Extension(fileName);
    var k := |fileName| - |e|;
    var e' := Extension(lower);
    var k' := |lower| - |e'|;
    assert k' == k;
    assert lower[k..] == ToLower(fileName[k..]);
    ToLowerIdempotent(fileName[k..]);
  }

  /** A name without a dot is classified by the whole name, so `MP3` is audio. */
  lemma NoDotUsesWholeName(fileName: string)
    requires '.' !in fileName
    ensures Extension(fileName) == ToLower(fileName)
  {
  }

  lemma BareMp3IsAudio()
    ensures Extension("MP3") == "mp3"
    ensures IsAudio("MP3") && ContentType("MP3") == "audio/mpeg"
  {
    NoDotUsesWholeName("MP3");
    var lower := ToLower("MP3");
    assert lower[0] == 'm' && lower[1] == 'p' && lower[2] == '3';
    assert lower == "mp3";
  }
}

=== FILE: file_serve.dfy ===
/** `FileServeController.serveFile` and `handleRangeRequest`: the choice
    between the whole file (`200`) and one byte window (`206 Partial Content`),
    with the status and headers that go with it. The body is not modelled as
    bytes: a plan names the window the headers announce. The controller hands
    the whole file to Spring with the `206`, which sends it uncut, so the
    bytes sent are the window only when it starts at 0. */
module FileServe {
  import opened Results
  import opened Text
  import opened Paths
  import opened Storage
  import ContentTypes
  import opened RangeHeader

  /** What the handler answers. Both answers that send the file carry the
      name for `Content-Disposition`. It is optional in a `200` and always set
      in a `206`, so the two fields have different types and different names. */
  datatype ServePlan =
    | Full(size: nat, contentType: string, dispositionName: Option<string>)
    | Partial(start: nat, end: nat, size: nat, contentType: string, fileName: string)
    | NotFound
    | ServerError

  function Status(plan: ServePlan): int
  {
    match plan
    case Full(_, _, _) => 200
    case Partial(_, _, _, _, _) => 206
    case NotFound => 404
    case ServerError => 500
  }

  /** Number of bytes in the inclusive window `start..end`. */
  function WindowLength(start: nat, end: nat): nat
  {
    if start <= end then end - start + 1 else 0
  }

  /** `String.format("bytes %d-%d/%d", start, end, fileSize)`, section 4.2 of RFC 7233. */
  function RangeField(start: nat, end: nat, size: nat): string
  {
    "bytes " + Decimal(start) + "-" + Decimal(end) + "/" + Decimal(size)
  }

  function InlineDisposition(fileName: string): string
  {
    "inline; filename=\"" + fileName + "\""
  }

  /** The response headers the handler sets. */
  datatype HeaderName = ContentType | ContentLength | AcceptRanges | ContentRange | ContentDisposition

  /** The headers the response builder sets; each is set at most once. */
  function Headers(plan: ServePlan): map<HeaderName, string>
  {
    match plan
    case Full(size, contentType, dispositionName) =>
      var common := map[ContentType := contentType, ContentLength := Decimal(size), AcceptRanges := "bytes"];
      if dispositionName.Some? then common[ContentDisposition := InlineDisposition(dispositionName.value)] else common
    case Partial(start, end, size, contentType, fileName) =>
      map[ContentType := contentType, ContentLength := Decimal(WindowLength(start, end)),
          AcceptRanges := "bytes", ContentRange := RangeField(start, end, size),
          ContentDisposition := InlineDisposition(fileName)]
    case NotFound => map[]
    case ServerError => map[]
  }

  /** The value of header `name`, if the response carries it. */
  function HeaderValue(headers: map<HeaderName, string>, name: HeaderName): Option<string>
  {
    if name in headers then Some(headers[name]) else None
  }

  /** What the `try` block of `handleRangeRequest` computes, or `None` where
      the stand-in refuses the header or finds no satisfiable window. */
  function RangeAttempt(header: string, size: nat, contentType: string, fileName: string): Option<ServePlan>
  {
    match ParseRanges(header)
    case Err(_) => None
    case Ok(specs) =>
      if |specs| == 0 then Some(Full(size, contentType, None))
      else
        match Window(specs[0], size)
        case None => None
        case Some((start, end)) => Some(Partial(start, end, size, contentType, fileName))
  }

  /** `handleRangeRequest` as written: the `catch` returns `500`. */
  function HandleRangeAsWritten(header: string, size: nat, contentType: string, fileName: string): (plan: ServePlan)
    ensures plan.ServerError? <==> RangeAttempt(header, size, contentType, fileName).None?
    ensures ParseRanges(header).Err? ==> plan == ServerError
  {
    match RangeAttempt(header, size, contentType, fileName)
    case None => ServerError
    case Some(plan) => plan
  }

  /** `handleRangeRequest` with the `catch` doing what its comment and the
      method's documentation say: the whole file with `200`, without a
      `Content-Disposition` header. This is the version the model serves with. */
  function HandleRange(header: string, size: nat, contentType: string, fileName: string): (plan: ServePlan)
    ensures plan.Full? || plan.Partial?
    ensures plan.Full? ==> plan == Full(size, contentType, None)
    ensures plan.Partial? ==>
      && plan.start <= plan.end < size
      && plan.size == size && plan.contentType == contentType && plan.fileName == fileName
    ensures ParseRanges(header).Err? ==> plan == Full(size, contentType, None)
  {
    match RangeAttempt(header, size, contentType, fileName)
    case None => Full(size, contentType, None)
    case Some(plan) => plan
  }

  /** `resource.getFilename()`: the last name of the path, empty for the root. */
  function LastName(p: Path): string
  {
    if |p.names| == 0 then "" else p.names[|p.names| - 1]
  }

  /** The file a request for `subDirectory/fileName` reads, or `None` when a
      name holds a character no path may hold. */
  function ServedPath(root: Path, subDirectory: string, fileName: string): Option<Path>
  {
    match (ParsePath(subDirectory), ParsePath(fileName))
    case (Some(sub), Some(name)) => Some(Normalize(Resolve(Resolve(root, sub), name)))
    case _ => None
  }

  /** `serveFile`. */
  function ServeFile(root: Path, store: Store, subDirectory: string, fileName: string,
                     rangeHeader: Option<string>): (plan: ServePlan)
    ensures plan.Full? || plan.Partial? ==>
      var p := ServedPath(root, subDirectory, fileName);
      p.Some? && p.value in store && store[p.value].readable && plan.size == |store[p.value].data|
  {
    match ServedPath(root, subDirectory, fileName)
    case None => ServerError
    case Some(path) =>
      if path !in store || !store[path].readable then NotFound
      else
        var contentType := ContentTypes.ContentType(fileName);
        var size := |store[path].data|;
        if rangeHeader.Some? && ContentTypes.IsAudio(fileName) then
          HandleRange(rangeHeader.value, size, contentType, fileName)
        else
          Full(size, contentType, Some(LastName(path)))
  }

  /** Without a `Range` header, or for a file that is not audio, a readable
      file is always served whole with `200`, its size as `Content-Length`
      and `Accept-Ranges: bytes`. */
  lemma WithoutRangeServesWhole(root: Path, store: Store, subDirectory: string, fileName: string,
                                rangeHeader: Option<string>)
    requires rangeHeader.None? || !ContentTypes.IsAudio(fileName)
    requires ServedPath(root, subDirectory, fileName).Some?
    requires var p := ServedPath(root, subDirectory, fileName).value; p in store && store[p].readable
    ensures var p := ServedPath(root, subDirectory, fileName).value;
      var plan := ServeFile(root, store, subDirectory, fileName, rangeHeader);
      && plan == Full(|store[p].data|, ContentTypes.ContentType(fileName), Some(LastName(p)))
      && Status(plan) == 200
      && HeaderValue(Headers(plan), ContentLength) == Some(Decimal(|store[p].data|))
      && HeaderValue(Headers(plan), AcceptRanges) == Some("bytes")
  {
  }

  /** Without a `Range` header or for a non-audio file there is never a `206`. */
  lemma NoPartialWithoutAudioRange(root: Path, store: Store, subDirectory: string, fileName: string,
                                   rangeHeader: Option<string>)
    requires rangeHeader.None? || !ContentTypes.IsAudio(fileName)
    ensures !ServeFile(root, store, subDirectory, fileName, rangeHeader).Partial?
  {
  }

  /** A missing or unreadable file is `404`; a path the file system refuses is `500`. */
  lemma MissingOrUnreadableIsNotFound(root: Path, store: Store, subDirectory: string, fileName: string,
                                      rangeHeader: Option<string>)
    ensures var plan := ServeFile(root, store, subDirectory, fileName, rangeHeader);
      var p := ServedPath(root, subDirectory, fileName);
      && (p.None? <==> Status(plan) == 500)
      && (p.Some? && (p.value !in store || !store[p.value].readable) <==> Status(plan) == 404)
  {
  }

  /** With a `Range` header on an audio file the plan is `handleRangeRequest`'s. */
  lemma AudioRangeIsHandled(root: Path, store: Store, subDirectory: string, fileName: string, header: string)
    requires ContentTypes.IsAudio(fileName)
    requires ServedPath(root, subDirectory, fileName).Some?
    requires var p := ServedPath(root, subDirectory, fileName).value; p in store && store[p].readable
    ensures var p := ServedPath(root, subDirectory, fileName).value;
      ServeFile(root, store, subDirectory, fileName, Some(header))
        == HandleRange(header, |store[p].data|, ContentTypes.ContentType(fileName), fileName)
  {
  }

  /** A `206` carries the window's length and `bytes start-end/size`. */
  lemma PartialHeaders(plan: ServePlan)
    requires plan.Partial? && plan.start <= plan.end
    ensures Status(plan) == 206
    ensures HeaderValue(Headers(plan), ContentLength) == Some(Decimal(plan.end - plan.start + 1))
    ensures HeaderValue(Headers(plan), ContentRange) == Some(RangeField(plan.start, plan.end, plan.size))
    ensures HeaderValue(Headers(plan), AcceptRanges) == Some("bytes")
    ensures HeaderValue(Headers(plan), ContentDisposition) == Some(InlineDisposition(plan.fileName))
  {
  }

  /** An empty range list serves the whole file with `200`. */
  lemma EmptyRangeListServesWhole(header: string, size: nat, contentType: string, fileName: string)
    requires ParseRanges(header) == Ok([])
    ensures HandleRange(header, size, contentType, fileName) == Full(size, contentType, None)
    ensures HandleRangeAsWritten(header, size, contentType, fileName) == Full(size, contentType, None)
    ensures HeaderValue(Headers(Full(size, contentType, None)), ContentLength) == Some(Decimal(size))
  {
  }

  /** Only the first range counts: the answer to a list is the answer to its
      first element alone. */
  lemma FirstRangeDecides(header: string, size: nat, contentType: string, fileName: string)
    requires ParseRanges(header).Ok? && |ParseRanges(header).value| >= 1
    ensures var first := ParseRanges(header).value[0];
      HandleRange(header, size, contentType, fileName) == HandleRange(Render([first]), size, contentType, fileName)
  {
    var first := ParseRanges(header).value[0];
    RenderParses([first]);
  }

  /** A `206` window is exactly the bytes section 2.1 of RFC 7233 says the
      first range selects. */
  lemma PartialIsSelection(header: string, size: nat, contentType: string, fileName: string)
    requires HandleRange(header, size, contentType, fileName).Partial?
    ensures ParseRanges(header).Ok? && |ParseRanges(header).value| >= 1
    ensures var plan := HandleRange(header, size, contentType, fileName);
      forall i: nat :: Selects(ParseRanges(header).value[0], size, i) <==> plan.start <= i <= plan.end
  {
    var specs := ParseRanges(header).value;
    WindowIsSelection(specs[0], size);
  }

  /** A satisfiable first range always yields a `206` with its window: with
      `PartialIsSelection`, the handler answers `206` exactly when the first
      range selects some byte of the file. */
  lemma SatisfiableIsPartial(header: string, size: nat, contentType: string, fileName: string)
    requires ParseRanges(header).Ok? && |ParseRanges(header).value| >= 1
    requires exists i: nat :: Selects(ParseRanges(header).value[0], size, i)
    ensures var w := Window(ParseRanges(header).value[0], size);
      && w.Some?
      && HandleRange(header, size, contentType, fileName) == Partial(w.value.0, w.value.1, size, contentType, fileName)
  {
    WindowIsSelection(ParseRanges(header).value[0], size);
  }

  /** An unsatisfiable first range never yields a `206`: the whole file is
      served instead. */
  lemma UnsatisfiableServesWhole(header: string, size: nat, contentType: string, fileName: string)
    requires ParseRanges(header).Ok? && |ParseRanges(header).value| >= 1
    requires forall i: nat :: !Selects(ParseRanges(header).value[0], size, i)
    ensures HandleRange(header, size, contentType, fileName) == Full(size, contentType, None)
  {
    WindowIsSelection(ParseRanges(header).value[0], size);
  }

  /** `bytes=0-0` on a non-empty file: a one-byte `206` with `bytes 0-0/size`. */
  lemma FirstByteWindow(header: string, size: nat, contentType: string, fileName: string)
    requires header == "bytes=0-0" && size >= 1
    ensures var plan := HandleRange(header, size, contentType, fileName);
      && plan == Partial(0, 0, size, contentType, fileName)
      && HeaderValue(Headers(plan), ContentLength) == Some("1")
      && HeaderValue(Headers(plan), ContentRange) == Some("bytes 0-0/" + Decimal(size))
  {
    FirstBytePlan(header, size, contentType, fileName);
    FirstByteHeaders(size, contentType, fileName);
  }

  lemma FirstByteHeaders(size: nat, contentType: string, fileName: string)
    ensures var plan := Partial(0, 0, size, contentType, fileName);
      && HeaderValue(Headers(plan), ContentLength) == Some("1")
      && HeaderValue(Headers(plan), ContentRange) == Some("bytes 0-0/" + Decimal(size))
  {
    PartialHeaders(Partial(0, 0, size, contentType, fileName));
    FirstByteFields(size);
  }

  lemma FirstBytePlan(header: string, size: nat, contentType: string, fileName: string)
    requires header == "bytes=0-0" && size >= 1
    ensures HandleRange(header, size, contentType, fileName) == Partial(0, 0, size, contentType, fileName)
  {
    FirstByteOnly(size);
    assert ParseRanges(header) == Ok([FromTo(0, Some(0))]);
  }

  lemma FirstByteFields(size: nat)
    ensures Decimal(0 - 0 + 1) == "1"
    ensures RangeField(0, 0, size) == "bytes 0-0/" + Decimal(size)
  {
    assert Decimal(0) == ['0'];
    assert Decimal(1) == ['1'];
  }

  /** `bytes=N-N` on a file of `N` bytes starts past the last byte: no `206`. */
  lemma StartAtEndNotPartial(size: nat, contentType: string, fileName: string)
    ensures !HandleRange(Render([FromTo(size, Some(size))]), size, contentType, fileName).Partial?
  {
    RenderParses([FromTo(size, Some(size))]);
  }

  /** A refused header is never answered with `206`, in either version. */
  lemma MalformedNeverPartial(header: string, size: nat, contentType: string, fileName: string)
    requires ParseRanges(header).Err?
    ensures HandleRangeAsWritten(header, size, contentType, fileName) == ServerError
    ensures HandleRange(header, size, contentType, fileName) == Full(size, contentType, None)
  {
  }

  /** The two versions differ exactly where the `try` block throws. */
  lemma VersionsAgreeUnlessThrown(header: string, size: nat, contentType: string, fileName: string)
    ensures RangeAttempt(header, size, contentType, fileName).Some? ==>
      HandleRangeAsWritten(header, size, contentType, fileName) == HandleRange(header, size, contentType, fileName)
    ensures RangeAttempt(header, size, contentType, fileName).None? ==>
      Status(HandleRangeAsWritten(header, size, contentType, fileName)) == 500
      && Status(HandleRange(header, size, contentType, fileName)) == 200
  {
  }

  /** The discrepancy on a concrete header: `bytes=abc` gets `500` as written,
      where the documentation promises the whole file with `200`. */
  lemma MalformedHeaderDiscrepancy()
    ensures HandleRangeAsWritten("bytes=abc", 10, "audio/mpeg", "a.mp3") == ServerError
    ensures HandleRange("bytes=abc", 10, "audio/mpeg", "a.mp3") == Full(10, "audio/mpeg", None)
  {
    LettersRefused();
  }
}

=== FILE: paths.dfy ===
/** Paths as `java.nio.file` sees them on a POSIX file system: an absolute flag
    and a sequence of name elements. `Resolve`, `Normalize` and `StartsWith`
    are the three operations the traversal guard is built from; the guard in
    `FileCompressionService.compressSingleFile` is `Contained` below. */
module Paths {
  import opened Results
  import opened Text

  datatype Path = Path(absolute: bool, names: seq<string>)

  const Separator: char := '/'
  const NulChar: char := 0 as char

  /** What a name element of a parsed path can be: non-empty, no separator, no NUL. */
  predicate ValidName(n: string)
  {
    n != "" && Separator !in n && NulChar !in n
  }

  predicate ValidNames(names: seq<string>)
  {
    forall k :: 0 <= k < |names| ==> ValidName(names[k])
  }

  /** The non-empty pieces, in order: repeated and trailing separators vanish. */
  function NonEmpty(pieces: seq<string>): (r: seq<string>)
    ensures |r| <= |pieces|
    ensures forall k :: 0 <= k < |r| ==> r[k] != "" && r[k] in pieces
  {
    if |pieces| == 0 then []
    else if pieces[0] == "" then NonEmpty(pieces[1..])
    else [pieces[0]] + NonEmpty(pieces[1..])
  }

  lemma {:induction false} NonEmptyKeepsAll(pieces: seq<string>)
    requires forall k :: 0 <= k < |pieces| ==> pieces[k] != ""
    ensures NonEmpty(pieces) == pieces
  {
    if |pieces| > 0 {
      NonEmptyKeepsAll(pieces[1..]);
    }
  }

  /** `Paths.get(text)`: a NUL character is refused (InvalidPathException);
      otherwise the path is absolute when the text starts with `/`, and its
      names are the non-empty pieces between separators. */
  function ParsePath(text: string): (r: Option<Path>)
    ensures r.None? <==> NulChar in text
    ensures r.Some? ==> r.value.absolute == (|text| > 0 && text[0] == Separator)
    ensures r.Some? ==> ValidNames(r.value.names)
  {
    if NulChar in text then None
    else
      var pieces := Split(text, Separator);
      var names := NonEmpty(pieces);
      assert forall k :: 0 <= k < |names| ==> NulChar !in names[k] by {
        forall k | 0 <= k < |names|
          ensures NulChar !in names[k]
        {
          if NulChar in names[k] {
            JoinSplit(text, Separator);
            assert names[k] in pieces;
            var j :| 0 <= j < |pieces| && pieces[j] == names[k];
            JoinContainsPiece(pieces, Separator, j);
          }
        }
      }
      Some(Path(|text| > 0 && text[0] == Separator, names))
  }

  /** Every character of every piece appears in the joined text. */
  lemma {:induction false} JoinContainsPiece(parts: seq<string>, sep: char, j: nat)
    requires j < |parts|
    ensures forall c :: c in parts[j] ==> c in Join(parts, sep)
  {
    if |parts| > 1 {
      var rest := Join(parts[1..], sep);
      assert Join(parts, sep) == parts[0] + [sep] + rest;
      if j > 0 {
        assert parts[1..][j - 1] == parts[j];
        JoinContainsPiece(parts[1..], sep, j - 1);
        forall c | c in parts[j]
          ensures c in Join(parts, sep)
        {
          assert c in rest;
        }
      }
    }
  }

  /** `Path.toString()`: a leading separator for an absolute path, then the names. */
  function PathText(p: Path): string
  {
    (if p.absolute then "/" else "") + Join(p.names, Separator)
  }

  /** Printing a path and parsing the text gives the same path back. */
  lemma {:induction false} PathTextRoundTrip(p: Path)
    requires ValidNames(p.names)
    ensures ParsePath(PathText(p)) == Some(p)
  {
    var body := Join(p.names, Separator);
    var text := PathText(p);
    JoinedNames(p.names);
    if p.absolute {
      assert text == [Separator] + body;
      IndexOfFirst(text, Separator, 0);
      assert text[1..] == body;
      assert Split(text, Separator) == [""] + Split(body, Separator);
      assert NonEmpty([""] + Split(body, Separator)) == NonEmpty(Split(body, Separator));
    } else {
      assert text == body;
    }
    assert NulChar !in text;
  }

  /** The text of valid names joined by separators holds no NUL, does not
      start with a separator, and splits back into the names. */
  lemma JoinedNames(names: seq<string>)
    requires ValidNames(names)
    ensures NulChar !in Join(names, Separator)
    ensures |names| > 0 ==> Join(names, Separator)[0] != Separator
    ensures NonEmpty(Split(Join(names, Separator), Separator)) == names
  {
    var body := Join(names, Separator);
    if NulChar in body {
      JoinChars(names, Separator, NulChar);
    }
    if |names| > 0 {
      assert body[0] == names[0][0];
      SplitJoin(names, Separator);
    } else {
      assert Split(body, Separator) == [""];
    }
    NonEmptyKeepsAll(names);
  }

  /** `base.resolve(other)`: an absolute `other` replaces `base`; a relative one
      is appended to it. */
  function Resolve(base: Path, other: Path): Path
  {
    if other.absolute then other else Path(base.absolute, base.names + other.names)
  }

  /** `base.resolve(name)` for one plain name (a child of `base`). */
  function Child(base: Path, name: string): Path
  {
    Path(base.absolute, base.names + [name])
  }

  /** One step of `normalize()`: `.` vanishes; `..` removes the preceding
      name if there is one that is not itself `..`, vanishes directly under the
      root of an absolute path, and is kept at the head of a relative one. */
  function Step(absolute: bool, kept: seq<string>, name: string): seq<string>
  {
    if name == "." then kept
    else if name == ".." then
      if |kept| > 0 && kept[|kept| - 1] != ".." then kept[..|kept| - 1]
      else if absolute then kept
      else kept + [".."]
    else kept + [name]
  }

  /** The names left after feeding `names` through `Step`, starting from `kept`. */
  function Fold(absolute: bool, kept: seq<string>, names: seq<string>): seq<string>
    decreases |names|
  {
    if |names| == 0 then kept else Fold(absolute, Step(absolute, kept, names[0]), names[1..])
  }

  /** A path `normalize()` leaves alone: no `.` anywhere, no `..` in an
      absolute path, and in a relative one `..` only in a leading run. */
  predicate IsNormal(p: Path)
  {
    && (forall k :: 0 <= k < |p.names| ==> p.names[k] != ".")
    && (forall k :: 0 <= k < |p.names| && p.names[k] == ".." ==> !p.absolute)
    && (forall j, k :: 0 <= j < k < |p.names| && p.names[k] == ".." ==> p.names[j] == "..")
  }

  /** `Path.normalize()`, a purely syntactic rewrite that never touches the disk. */
  function Normalize(p: Path): (r: Path)
    ensures r.absolute == p.absolute
    ensures IsNormal(r)
    ensures ValidNames(p.names) ==> ValidNames(r.names)
  {
    FoldKeepsNormal(p.absolute, [], p.names);
    Path(p.absolute, Fold(p.absolute, [], p.names))
  }

  lemma {:induction false} FoldKeepsNormal(absolute: bool, kept: seq<string>, names: seq<string>)
    requires IsNormal(Path(absolute, kept))
    ensures IsNormal(Path(absolute, Fold(absolute, kept, names)))
    ensures ValidNames(kept) && ValidNames(names) ==> ValidNames(Fold(absolute, kept, names))
    decreases |names|
  {
    if |names| > 0 {
      var next := Step(absolute, kept, names[0]);
      assert IsNormal(Path(absolute, next));
      assert ValidNames(kept) && ValidNames(names) ==> ValidNames(next) && ValidNames(names[1..]);
      FoldKeepsNormal(absolute, next, names[1..]);
    }
  }

  /** Feeding a concatenation is feeding its halves one after the other. */
  lemma {:induction false} FoldAppend(absolute: bool, kept: seq<string>, xs: seq<string>, ys: seq<string>)
    ensures Fold(absolute, kept, xs + ys) == Fold(absolute, Fold(absolute, kept, xs), ys)
    decreases |xs|
  {
    if |xs| > 0 {
      assert (xs + ys)[0] == xs[0];
      assert (xs + ys)[1..] == xs[1..] + ys;
      FoldAppend(absolute, Step(absolute, kept, xs[0]), xs[1..], ys);
    } else {
      assert xs + ys == ys;
    }
  }

  /** Names that are already in normal form pass through `Fold` unchanged. */
  lemma {:induction false} FoldNormal(absolute: bool, kept: seq<string>, names: seq<string>)
    requires IsNormal(Path(absolute, kept + names))
    ensures Fold(absolute, kept, names) == kept + names
    decreases |names|
  {
    if |names| > 0 {
      var all := kept + names;
      assert all[|kept|] == names[0];
      assert Step(absolute, kept, names[0]) == kept + [names[0]] by {
        if names[0] == ".." && |kept| > 0 {
          assert all[|kept| - 1] == kept[|kept| - 1];
        }
      }
      assert kept + [names[0]] + names[1..] == all;
      FoldNormal(absolute, kept + [names[0]], names[1..]);
    } else {
      assert kept + names == kept;
    }
  }

  /** `normalize()` is idempotent, and a normal path is its own normal form. */
  lemma NormalizeFixesNormal(p: Path)
    requires IsNormal(p)
    ensures Normalize(p) == p
  {
    assert [] + p.names == p.names;
    FoldNormal(p.absolute, [], p.names);
  }

  lemma NormalizeIdempotent(p: Path)
    ensures Normalize(Normalize(p)) == Normalize(p)
  {
    NormalizeFixesNormal(Normalize(p));
  }

  /** `p.startsWith(prefix)`: compared name by name, never as text. */
  predicate StartsWith(p: Path, prefix: Path)
  {
    && p.absolute == prefix.absolute
    && |prefix.names| <= |p.names|
    && p.names[..|prefix.names|] == prefix.names
  }

  /** A storage root as the source computes it: absolute and normalized. */
  predicate IsRoot(root: Path)
  {
    root.absolute && IsNormal(root) && ValidNames(root.names)
  }

  /** `Paths.get(uploadDir).toAbsolutePath().normalize()`, with the process's
      working directory `cwd` as a parameter. */
  function StorageLocation(cwd: Path, uploadDir: string): (r: Option<Path>)
    requires cwd.absolute && ValidNames(cwd.names)
    ensures r.None? <==> NulChar in uploadDir
    ensures r.Some? ==> IsRoot(r.value)
  {
    match ParsePath(uploadDir)
    case None => None
    case Some(p) => Some(Normalize(Resolve(cwd, p)))
  }

  /** `root.resolve(input).normalize()`, the path every handler reads from. */
  function ResolveUnder(root: Path, input: Path): Path
  {
    Normalize(Resolve(root, input))
  }

  /** The traversal guard of `compressSingleFile`. */
  predicate Contained(root: Path, input: Path)
  {
    StartsWith(ResolveUnder(root, input), root)
  }

  /** `d` names a descendant below a directory: plain names only. */
  predicate PlainNames(d: seq<string>)
  {
    forall k :: 0 <= k < |d| ==> d[k] != "." && d[k] != ".."
  }

  /** The guard admits exactly the inputs that land on the root itself or on a
      path below it reached by plain names; in particular an admitted path never
      climbs back out through `..`. */
  lemma GuardMeansDescendant(root: Path, input: Path)
    requires IsRoot(root)
    ensures Contained(root, input) <==>
      exists d :: PlainNames(d) && ResolveUnder(root, input) == Path(true, root.names + d)
  {
    var r := ResolveUnder(root, input);
    assert r.absolute;
    if Contained(root, input) {
      var d := r.names[|root.names|..];
      assert r.names == root.names + d;
      assert PlainNames(d) by {
        forall k | 0 <= k < |d|
          ensures d[k] != "." && d[k] != ".."
        {
          assert d[k] == r.names[|root.names| + k];
        }
      }
    }
    if exists d :: PlainNames(d) && r == Path(true, root.names + d) {
      var d :| PlainNames(d) && r == Path(true, root.names + d);
      assert r.names[..|root.names|] == root.names;
    }
  }

  /** Walking up `m` levels from inside the root with nothing else after it
      drops `m` names from the end (never more than there are). */
  lemma {:induction false} ClimbDropsNames(kept: seq<string>, m: nat)
    requires IsNormal(Path(true, kept))
    ensures Fold(true, kept, seq(m, _ => "..")) == kept[..if m <= |kept| then |kept| - m else 0]
    decreases m
  {
    var ups := seq(m, _ => "..");
    if m > 0 {
      assert ups[0] == "..";
      assert ups[1..] == seq(m - 1, _ => "..");
      var next := Step(true, kept, "..");
      if |kept| > 0 {
        assert kept[|kept| - 1] != "..";
        assert next == kept[..|kept| - 1];
      } else {
        assert next == kept;
      }
      ClimbDropsNames(next, m - 1);
    }
  }

  /** An input made only of `..` names escapes any root that is not `/` itself. */
  lemma ClimbingEscapes(root: Path, m: nat)
    requires IsRoot(root) && |root.names| >= 1 && m >= 1
    ensures !Contained(root, Path(false, seq(m, _ => "..")))
  {
    var ups := seq(m, _ => "..");
    assert Resolve(root, Path(false, ups)) == Path(true, root.names + ups);
    FoldAppend(true, [], root.names, ups);
    assert [] + root.names == root.names;
    FoldNormal(true, [], root.names);
    ClimbDropsNames(root.names, m);
  }

  /** An absolute input ignores the root altogether, so one outside it is refused. */
  lemma AbsoluteOutsideRefused(root: Path, input: Path)
    requires IsRoot(root) && input.absolute
    requires !StartsWith(Normalize(input), root)
    ensures !Contained(root, input)
  {
  }

  /** The comparison is by name: `/srv/uploads2/x` is not below `/srv/uploads`
      although its text begins with the text of the root. */
  lemma SiblingPrefixRefused()
    ensures PathText(Path(true, ["srv", "uploads"])) <= PathText(Path(true, ["srv", "uploads2", "x"]))
    ensures !Contained(Path(true, ["srv", "uploads"]), Path(false, ["..", "uploads2", "x"]))
  {
    var root := Path(true, ["srv", "uploads"]);
    var r := ResolveUnder(root, Path(false, ["..", "uploads2", "x"]));
    assert Fold(true, [], ["srv", "uploads", "..", "uploads2", "x"]) == ["srv", "uploads2", "x"];
    assert r.names[1] == "uploads2";
  }
}

=== FILE: range_header.dfy ===
/** A first-range parser and window computation for the HTTP `Range` header,
    following section 2.1 of RFC 7233. It stands in for Spring's
    `HttpRange.parseRanges`, `getRangeStart` and `getRangeEnd`, whose code is
    not part of this model. */
module RangeHeader {
  import opened Results
  import opened Text

  /** `first-byte-pos "-" [ last-byte-pos ]` or `"-" suffix-length`. */
  datatype RangeSpec =
    | FromTo(first: nat, last: Option<nat>)
    | Suffix(length: nat)

  /** Why a header value was refused (Spring throws IllegalArgumentException). */
  datatype RangeError =
    | NotBytesUnit
    | MissingDash
    | BadNumber
    | LastBeforeFirst

  /** A last-byte-pos below the first-byte-pos makes the spec invalid. */
  predicate ValidSpec(spec: RangeSpec)
  {
    spec.FromTo? && spec.last.Some? ==> spec.first <= spec.last.value
  }

  predicate AllValid(specs: seq<RangeSpec>)
  {
    forall k :: 0 <= k < |specs| ==> ValidSpec(specs[k])
  }

  const UnitPrefix: string := "bytes="

  /** One list element, already stripped of surrounding white space. */
  function ParseSpec(token: string): (r: Result<RangeSpec, RangeError>)
    ensures r.Ok? ==> ValidSpec(r.value)
  {
    var dash := IndexOf(token, '-');
    if dash == |token| then Err(MissingDash)
    else if dash == 0 then
      match ParseNatural(token[1..])
      case None => Err(BadNumber)
      case Some(n) => Ok(Suffix(n))
    else
      match ParseNatural(token[..dash])
      case None => Err(BadNumber)
      case Some(first) =>
        var rest := token[dash + 1..];
        if rest == "" then Ok(FromTo(first, None))
        else
          match ParseNatural(rest)
          case None => Err(BadNumber)
          case Some(last) =>
            if last < first then Err(LastBeforeFirst) else Ok(FromTo(first, Some(last)))
  }

  /** The list elements: white space around each is dropped, and so are empty
      elements (section 7 of RFC 7230). */
  function Elements(pieces: seq<string>): (r: seq<string>)
    ensures |r| <= |pieces|
  {
    if |pieces| == 0 then []
    else
      var t := Trim(pieces[0]);
      if t == "" then Elements(pieces[1..]) else [t] + Elements(pieces[1..])
  }

  /** Every element parsed in order; the first bad one refuses the header. */
  function ParseAll(tokens: seq<string>): (r: Result<seq<RangeSpec>, RangeError>)
    ensures r.Ok? ==> |r.value| == |tokens| && AllValid(r.value)
  {
    if |tokens| == 0 then Ok([])
    else
      match ParseSpec(tokens[0])
      case Err(e) => Err(e)
      case Ok(spec) =>
        match ParseAll(tokens[1..])
        case Err(e) => Err(e)
        case Ok(specs) => Ok([spec] + specs)
  }

  /** `HttpRange.parseRanges`: an empty header is an empty list; otherwise the
      value must start with `bytes=` and hold a comma-separated list. */
  function ParseRanges(header: string): (r: Result<seq<RangeSpec>, RangeError>)
    ensures r.Ok? ==> AllValid(r.value)
    ensures !(UnitPrefix <= header) && header != "" ==> r == Err(NotBytesUnit)
  {
    if header == "" then Ok([])
    else if !(UnitPrefix <= header) then Err(NotBytesUnit)
    else ParseAll(Elements(Split(header[|UnitPrefix|..], ',')))
  }

  /** How a client writes one spec. */
  function RenderSpec(spec: RangeSpec): string
  {
    match spec
    case FromTo(first, None) => Decimal(first) + "-"
    case FromTo(first, Some(last)) => Decimal(first) + "-" + Decimal(last)
    case Suffix(n) => "-" + Decimal(n)
  }

  /** How a client writes a whole `Range` header value. */
  function Render(specs: seq<RangeSpec>): string
  {
    UnitPrefix + Join(seq(|specs|, k requires 0 <= k < |specs| => RenderSpec(specs[k])), ',')
  }

  lemma RenderSpecChars(spec: RangeSpec)
    ensures |RenderSpec(spec)| > 0
    ensures forall i :: 0 <= i < |RenderSpec(spec)| ==> IsDigit(RenderSpec(spec)[i]) || RenderSpec(spec)[i] == '-'
  {
  }

  /** Parsing a rendered spec gives the spec back. */
  lemma ParseRenderSpec(spec: RangeSpec)
    requires ValidSpec(spec)
    ensures ParseSpec(RenderSpec(spec)) == Ok(spec)
  {
    var t := RenderSpec(spec);
    match spec
    case FromTo(first, last) =>
      var d := Decimal(first);
      assert t[|d|] == '-';
      assert forall j :: 0 <= j < |d| ==> t[j] == d[j];
      IndexOfFirst(t, '-', |d|);
      assert t[..|d|] == d;
      DecimalRoundTrip(first);
      if last.Some? {
        assert t[|d| + 1..] == Decimal(last.value);
        DecimalRoundTrip(last.value);
      } else {
        assert t[|d| + 1..] == "";
      }
    case Suffix(n) =>
      IndexOfFirst(t, '-', 0);
      assert t[1..] == Decimal(n);
      DecimalRoundTrip(n);
  }

  /** A list element with nothing to trim. */
  predicate Plain(t: string)
  {
    t != "" && forall i :: 0 <= i < |t| ==> !IsOws(t[i])
  }

  lemma ElementsPlainHead(pieces: seq<string>)
    requires |pieces| > 0 && Plain(pieces[0])
    ensures Elements(pieces) == [pieces[0]] + Elements(pieces[1..])
  {
    TrimUntouched(pieces[0]);
  }

  lemma {:induction false} ElementsKeepPlain(pieces: seq<string>)
    requires forall k :: 0 <= k < |pieces| ==> Plain(pieces[k])
    ensures Elements(pieces) == pieces
  {
    if |pieces| > 0 {
      ElementsPlainHead(pieces);
      var rest := pieces[1..];
      assert forall k :: 0 <= k < |rest| ==> rest[k] == pieces[k + 1];
      ElementsKeepPlain(rest);
      assert [pieces[0]] + rest == pieces;
    }
  }

  lemma {:induction false} ParseAllRendered(specs: seq<RangeSpec>)
    requires AllValid(specs)
    ensures ParseAll(seq(|specs|, k requires 0 <= k < |specs| => RenderSpec(specs[k]))) == Ok(specs)
  {
    var tokens := seq(|specs|, k requires 0 <= k < |specs| => RenderSpec(specs[k]));
    if |specs| > 0 {
      ParseRenderSpec(specs[0]);
      assert tokens[1..] == seq(|specs[1..]|, k requires 0 <= k < |specs[1..]| => RenderSpec(specs[1..][k]));
      ParseAllRendered(specs[1..]);
      assert [specs[0]] + specs[1..] == specs;
    }
  }

  /** A header a client renders from valid specs parses back to those specs. */
  lemma RenderParses(specs: seq<RangeSpec>)
    requires AllValid(specs)
    ensures ParseRanges(Render(specs)) == Ok(specs)
  {
    var tokens := seq(|specs|, k requires 0 <= k < |specs| => RenderSpec(specs[k]));
    var header := Render(specs);
    assert UnitPrefix <= header;
    assert header[|UnitPrefix|..] == Join(tokens, ',');
    if |specs| == 0 {
      assert Join(tokens, ',') == "";
      assert Split("", ',') == [""];
      assert Elements([""]) == [];
    } else {
      forall k | 0 <= k < |tokens|
        ensures ',' !in tokens[k]
        ensures Plain(tokens[k])
      {
        RenderSpecChars(specs[k]);
      }
      SplitJoin(tokens, ',');
      ElementsKeepPlain(tokens);
      ParseAllRendered(specs);
    }
  }

  /** Section 2.1 of RFC 7233: the spec asks for byte `offset` of a
      representation of `size` bytes. */
  predicate Selects(spec: RangeSpec, size: nat, offset: nat)
  {
    offset < size &&
    match spec
    case FromTo(first, last) => first <= offset && (last.None? || offset <= last.value)
    case Suffix(n) => offset + n >= size
  }

  /** The inclusive window `(start, end)` a spec selects, clamped to the
      representation; `None` when the spec is unsatisfiable (a first byte at or
      past the end, or a zero suffix). */
  function Window(spec: RangeSpec, size: nat): (w: Option<(nat, nat)>)
    ensures w.Some? ==> w.value.0 <= w.value.1 < size
  {
    match spec
    case FromTo(first, last) =>
      if first >= size || (last.Some? && last.value < first) then None
      else Some((first, if last.Some? && last.value < size then last.value else size - 1))
    case Suffix(n) =>
      if n == 0 || size == 0 then None
      else Some((if n < size then size - n else 0, size - 1))
  }

  /** The window is exactly the set of selected offsets, and there is no
      window exactly when no offset is selected. */
  lemma WindowIsSelection(spec: RangeSpec, size: nat)
    requires ValidSpec(spec)
    ensures Window(spec, size).None? <==> forall i: nat :: !Selects(spec, size, i)
    ensures Window(spec, size).Some? ==>
      forall i: nat :: Selects(spec, size, i) <==> Window(spec, size).value.0 <= i <= Window(spec, size).value.1
  {
    var w := Window(spec, size);
    if w.Some? {
      assert Selects(spec, size, w.value.0);
    }
  }

  lemma RenderFirstByte()
    ensures Render([FromTo(0, Some(0))]) == "bytes=0-0"
  {
    var specs := [FromTo(0, Some(0))];
    assert Decimal(0) == ['0'];
    assert RenderSpec(FromTo(0, Some(0))) == "0-0";
    var tokens := seq(|specs|, k requires 0 <= k < |specs| => RenderSpec(specs[k]));
    assert tokens == ["0-0"];
  }

  /** `bytes=0-0` asks for exactly the first byte. */
  lemma FirstByteOnly(size: nat)
    requires size >= 1
    ensures ParseRanges("bytes=0-0") == Ok([FromTo(0, Some(0))])
    ensures Window(FromTo(0, Some(0)), size) == Some((0, 0))
  {
    RenderFirstByte();
    RenderParses([FromTo(0, Some(0))]);
  }

  /** A range that begins at or after the end of the file selects nothing. */
  lemma StartAtEndUnsatisfiable(size: nat, first: nat, last: Option<nat>)
    requires first >= size
    ensures Window(FromTo(first, last), size).None?
  {
  }

  /** `bytes=abc` is refused, not read as some range. */
  lemma LettersRefused()
    ensures ParseRanges("bytes=abc").Err?
  {
    var body := "bytes=abc"[|UnitPrefix|..];
    assert body == "abc";
    assert IndexOf(body, ',') == 3;
    assert Split(body, ',') == ["abc"];
    assert Trim("abc") == "abc";
    assert Elements(["abc"]) == ["abc"];
    assert IndexOf("abc", '-') == 3;
  }
}

=== FILE: results.dfy ===
/** Failure-carrying values shared by every module of the model.
    Java signals a missing value with `null` and a failure with an exception;
    the model uses `Option` for the first and `Result` for the second. */
module Results {

  /** A value that may be absent (a nullable reference in the source). */
  datatype Option<+T> = None | Some(value: T)

  /** The outcome of an operation that either yields a value or raises. */
  datatype Result<+T, +E> = Ok(value: T) | Err(error: E)
}

=== FILE: storage.dfy ===
/** The file system the handlers read from, as a value: a map from normalized
    absolute paths to the regular files stored there. */
module Storage {
  import opened Paths

  newtype byte = x: int | 0 <= x < 256

  /** A regular file: its bytes and whether the process may read them. */
  datatype StoredFile = StoredFile(data: seq<byte>, readable: bool)

  /** `Files.exists(p)` holds exactly for the keys; directories are not entries. */
  type Store = map<Path, StoredFile>
}

=== FILE: text.dfy ===
/** Character-level string operations the source borrows from `java.lang.String`
    and from Java's decimal formatting: index search, ASCII lower-casing,
    splitting and joining on a separator, and natural numbers in decimal. */
module Text {
  import opened Results

  /** Index of the first `c` in `s` (Java `indexOf`), or `|s|` when there is none. */
  function IndexOf(s: string, c: char): (i: nat)
    ensures i <= |s|
    ensures i < |s| ==> s[i] == c
    ensures forall j :: 0 <= j < i ==> s[j] != c
  {
    if |s| == 0 then 0
    else if s[0] == c then 0
    else 1 + IndexOf(s[1..], c)
  }

  /** `IndexOf` is exactly the position of the first occurrence. */
  lemma IndexOfFirst(s: string, c: char, k: nat)
    requires k < |s| && s[k] == c
    requires forall j :: 0 <= j < k ==> s[j] != c
    ensures IndexOf(s, c) == k
  {
  }

  /** Index of the last `c` in `s`, or -1 when there is none (Java `lastIndexOf`). */
  function LastIndexOf(s: string, c: char): (i: int)
    ensures -1 <= i < |s|
    ensures 0 <= i ==> s[i] == c
    ensures forall j :: i < j < |s| ==> s[j] != c
  {
    if |s| == 0 then -1
    else if s[|s| - 1] == c then |s| - 1
    else LastIndexOf(s[..|s| - 1], c)
  }

  /** Lower-casing of one character, restricted to the ASCII letters. */
  function LowerChar(c: char): char
  {
    if 'A' <= c <= 'Z' then (c as int + 32) as char else c
  }

  function ToLower(s: string): (r: string)
    ensures |r| == |s|
    ensures forall i :: 0 <= i < |s| ==> r[i] == LowerChar(s[i])
  {
    seq(|s|, i requires 0 <= i < |s| => LowerChar(s[i]))
  }

  lemma ToLowerIdempotent(s: string)
    ensures ToLower(ToLower(s)) == ToLower(s)
  {
  }

  lemma LowerCharIsDot(c: char)
    ensures LowerChar(c) == '.' <==> c == '.'
  {
  }

  /** The pieces of `s` between occurrences of `sep`, in order; one piece more
      than there are separators, so the empty text gives one empty piece. */
  function Split(s: string, sep: char): (parts: seq<string>)
    ensures |parts| >= 1
    ensures forall k :: 0 <= k < |parts| ==> sep !in parts[k]
    decreases |s|
  {
    var i := IndexOf(s, sep);
    if i == |s| then [s] else [s[..i]] + Split(s[i + 1..], sep)
  }

  /** The pieces glued together with one `sep` between neighbours. */
  function Join(parts: seq<string>, sep: char): string
  {
    if |parts| == 0 then ""
    else if |parts| == 1 then parts[0]
    else parts[0] + [sep] + Join(parts[1..], sep)
  }

  /** Joining never introduces a character other than the separator. */
  lemma {:induction false} JoinChars(parts: seq<string>, sep: char, c: char)
    requires c in Join(parts, sep)
    ensures c == sep || exists k :: 0 <= k < |parts| && c in parts[k]
  {
    if |parts| == 1 {
      assert c in parts[0];
    } else if |parts| > 1 {
      var rest := Join(parts[1..], sep);
      assert Join(parts, sep) == parts[0] + [sep] + rest;
      if c in parts[0] {
      } else if c == sep {
      } else {
        assert c in rest;
        JoinChars(parts[1..], sep, c);
        var k :| 0 <= k < |parts[1..]| && c in parts[1..][k];
        assert c in parts[k + 1];
      }
    }
  }

  /** Splitting undoes joining when no piece contains the separator. */
  lemma {:induction false} SplitJoin(parts: seq<string>, sep: char)
    requires |parts| >= 1
    requires forall k :: 0 <= k < |parts| ==> sep !in parts[k]
    ensures Split(Join(parts, sep), sep) == parts
  {
    var s := Join(parts, sep);
    if |parts| == 1 {
      assert sep !in s;
      assert IndexOf(s, sep) == |s|;
    } else {
      var p := parts[0];
      var rest := Join(parts[1..], sep);
      assert s == p + [sep] + rest;
      assert s[|p|] == sep;
      assert forall j :: 0 <= j < |p| ==> s[j] == p[j];
      IndexOfFirst(s, sep, |p|);
      assert s[..|p|] == p;
      assert s[|p| + 1..] == rest;
      SplitJoin(parts[1..], sep);
      assert Split(s, sep) == [p] + parts[1..];
    }
  }

  /** Joining undoes splitting: no text is lost between the pieces. */
  lemma {:induction false} JoinSplit(s: string, sep: char)
    ensures Join(Split(s, sep), sep) == s
    decreases |s|
  {
    var i := IndexOf(s, sep);
    if i < |s| {
      var tail := s[i + 1..];
      var rest := Split(tail, sep);
      JoinSplit(tail, sep);
      var parts := Split(s, sep);
      assert parts == [s[..i]] + rest;
      assert |parts| >= 2 && parts[0] == s[..i] && parts[1..] == rest;
      calc {
        Join(parts, sep);
        parts[0] + [sep] + Join(parts[1..], sep);
        s[..i] + [sep] + tail;
        { assert s[i] == sep; }
        s;
      }
    }
  }

  /** Optional white space around list elements (section 3.2.3 of RFC 7230). */
  predicate IsOws(c: char)
  {
    c == ' ' || c == '\t'
  }

  function TrimStart(s: string): (r: string)
    ensures |r| <= |s| && r == s[|s| - |r|..]
    ensures |r| > 0 ==> !IsOws(r[0])
  {
    if |s| > 0 && IsOws(s[0]) then TrimStart(s[1..]) else s
  }

  function TrimEnd(s: string): (r: string)
    ensures |r| <= |s| && r == s[..|r|]
    ensures |r| > 0 ==> !IsOws(r[|r| - 1])
  {
    if |s| > 0 && IsOws(s[|s| - 1]) then TrimEnd(s[..|s| - 1]) else s
  }

  /** `s` without the white space at either end. */
  function Trim(s: string): (r: string)
  {
    TrimEnd(TrimStart(s))
  }

  lemma TrimUntouched(s: string)
    requires forall i :: 0 <= i < |s| ==> !IsOws(s[i])
    ensures Trim(s) == s
  {
  }

  predicate IsDigit(c: char)
  {
    '0' <= c <= '9'
  }

  predicate AllDigits(s: string)
  {
    forall i :: 0 <= i < |s| ==> IsDigit(s[i])
  }

  function DigitChar(d: nat): (c: char)
    requires d < 10
    ensures IsDigit(c)
  {
    ('0' as int + d) as char
  }

  function DigitValue(c: char): (d: nat)
    requires IsDigit(c)
    ensures d < 10 && DigitChar(d) == c
  {
    c as int - '0' as int
  }

  /** Decimal digits of `n` without leading zeros, as Java prints a `long`. */
  function Decimal(n: nat): (s: string)
    ensures |s| >= 1 && AllDigits(s)
    ensures |s| > 1 ==> s[0] != '0'
  {
    if n < 10 then [DigitChar(n)] else Decimal(n / 10) + [DigitChar(n % 10)]
  }

  /** The number a non-empty run of decimal digits denotes. */
  function DigitsValue(s: string): nat
    requires AllDigits(s)
  {
    if |s| == 0 then 0 else DigitsValue(s[..|s| - 1]) * 10 + DigitValue(s[|s| - 1])
  }

  /** A natural number written in decimal; anything but one or more digits is refused. */
  function ParseNatural(s: string): (r: Option<nat>)
    ensures r.Some? <==> |s| >= 1 && AllDigits(s)
  {
    if |s| >= 1 && AllDigits(s) then Some(DigitsValue(s)) else None
  }

  /** Reading back a printed number gives the number. */
  lemma {:induction false} DecimalRoundTrip(n: nat)
    ensures ParseNatural(Decimal(n)) == Some(n)
  {
    if n >= 10 {
      DecimalRoundTrip(n / 10);
      var s := Decimal(n);
      var front := Decimal(n / 10);
      assert s == front + [DigitChar(n % 10)];
      assert s[..|s| - 1] == front;
      assert DigitValue(s[|s| - 1]) == n % 10;
      assert DigitsValue(front) == n / 10;
      assert DigitsValue(s) == (n / 10) * 10 + n % 10;
    }
  }
}
